=== FILE: README.md ===
# Bounded priority queue — a Dafny model

This project models the Go package `bpq`, a bounded min-priority queue.
The queue has a fixed capacity, and a smaller `priority` means more urgent.
It has two backing strategies and a selector:

- **Sorted ring buffer** (`bpqringbuffer.go`, module `RingBuffer`). A
  circular array of `Entry(item, priority, inUse)` slots with `startIndex`
  and `endIndex`.
  - Push refuses when the slot at `endIndex` is in use and strictly more
    urgent than the new entry.
  - Otherwise Push writes at `endIndex` and advances `endIndex`, unless the
    next slot is `startIndex`, in which case `endIndex` stays pinned on the
    slot just written.
  - Push then swaps the new entry backwards until it is in order.
  - Pop takes the slot at `startIndex`, marks it free and advances
    `startIndex`.
- **Bounded binary min-heap** (`bpqboundedheap.go`, module `BoundedHeap`).
  Slots `[0, nextSlot)` are meant to form an array heap, and
  `highestPriorityIndex` is meant to name a least urgent slot. The written
  non-full push can break both (see "## Findings").
  - A full push overwrites that slot when the new priority is strictly
    below the tracked one, then sifts up and rescans every slot for the new
    worst. Otherwise it refuses.
  - A non-full push appends and sifts up, unless the new entry is less
    urgent than the tracked one.
  - Pop moves the last slot to the root and sifts down.
- **Selector** (`bpq.go`, module `Bpq`). `BPQWithCapacity` picks the ring
  buffer for capacities up to `maxRingBufferSize` (128) and the heap above
  that. `NoElementsError` is the only error.

Modelling choices:

- Each strategy is an immutable state record, and Push and Pop are pure
  functions returning the new state with the result.
- Unused slots keep the item and priority they last held, because the Go
  code never clears them.
- Go's `nil` item is a parameter `nil: T` of the constructors.
- `PopResult` is either `Popped(item)` (a nil error) or
  `Failed(NoElementsError)` (a nil item).

The ring buffer is reasoned about through its *view*, the slots read
circularly from `startIndex` (`RingBuffer.View`):

- the occupied slots form a run at the front of the view (`RunValid`);
- the run is sorted;
- `endIndex` is either the first free slot after the run (`EndFree`) or the
  run's last slot (`EndPinned`).

`Canonical` adds that `endIndex` is pinned only when the buffer is full.
The backward insertion loop, read in the view, is the reference insertion
`Entries.InsertByPriority`.

The heap is reasoned about with `HeapOrdered` on `[0, nextSlot)` and
`Tracked`: `highestPriorityIndex` is an occupied slot whose priority bounds
every occupied slot.

Module `Bpq` states one contract on the multiset of held entries
(`PopContract`, `PushContract`) and proves both strategies meet it.
`BpqScenarios` derives the package's test scenarios from that contract
alone. Two defects were found in the Go code (see "## Findings"):

- The queue-level `Bpq.Push` and `Bpq.Pop` use the corrected definitions.
- The strategy modules model the code as written, and state the public
  contract as lemmas with the preconditions under which the code keeps it.

The two strategies treat a tie with the worst held entry differently on a
full queue:

- The ring buffer admits a tie, because bpqringbuffer.go:48 refuses only
  on a strict `<`.
- The heap refuses a tie, because bpqboundedheap.go:45 admits only on a
  strict `<`.
- `Bpq.Displaces` records this difference.

Module `BpqAsWritten` dispatches to both strategies exactly as written.
It carries the empty-pop, push-then-pop, ordering and over-fill tests
over from the corrected queue:

- No pop reads the ring buffer's `endIndex`
  (`RingBuffer.PopIgnoresEnd`).
- The heap pushes of the ordering test end in the same state either way
  (`BoundedHeap.OrderingPushesAgree`).

## Model

| member | source | states |
|---|---|---|
| RingBuffer.MakeRingBuffer | bpqringbuffer.go:30-43 | a fresh ring buffer has the requested capacity, holds nothing and is in the valid shape with `endIndex` on a free slot |
| RingBuffer.Push | bpqringbuffer.go:45-82 | Push never changes the capacity or `startIndex`, keeps every index in range, and a refused push leaves the buffer exactly as it was |
| RingBuffer.Pop | bpqringbuffer.go:84-98 | Pop never changes the capacity or `endIndex`; a failed pop reports `NoElementsError` and leaves the buffer as it was |
| RingBuffer.SiftBack | bpqringbuffer.go:63-79 | the backward swap loop keeps the slot array's length; what it computes is stated by `SiftBackView` and `SiftBackSeqInserts` |
| RingBuffer.PopIgnoresEnd | bpqringbuffer.go:84-98 | two buffers that differ only in `endIndex` pop the same result and leave the same slots and `startIndex` |
| RingBuffer.SiftBackView | bpqringbuffer.go:63-79 | the circular backward swap loop, seen from `startIndex`, is the same as a backward insertion in the linear view |
| RingBuffer.SiftBackSeqInserts | bpqringbuffer.go:63-79 | moving the new entry backwards over a sorted run yields the reference insertion `InsertByPriority` of that entry into the run |
| RingBuffer.PushIntoFreeSlot | bpqringbuffer.go:48-61 | when `endIndex` names a free slot, Push is admitted, adds exactly one entry, and the run becomes the reference insertion of the new entry; the shape stays canonical |
| RingBuffer.PushAtPinnedEnd | bpqringbuffer.go:48-61 | when `endIndex` is pinned, Push is admitted if and only if the new priority is at most the run's last (largest) priority; a refusal changes nothing; an admission evicts exactly the last entry and inserts the new one in order |
| RingBuffer.PinnedEndIsWorst | bpqringbuffer.go:58-61 | a pinned `endIndex` names the run's last entry, whose priority bounds every held entry |
| RingBuffer.PopTakesHead | bpqringbuffer.go:84-98 | Pop fails if and only if nothing is held; otherwise it returns the item of a most urgent entry and leaves exactly the rest of the run |
| RingBuffer.PopShiftsRun | bpqringbuffer.go:89-95 | a successful pop keeps the occupied slots one contiguous run, one shorter, holding the old run minus its head |
| RingBuffer.PopKeepsShape | bpqringbuffer.go:89-95 | a successful pop keeps the valid shape, except exactly when `endIndex` was pinned on the single held entry of a buffer with more than one slot |
| RingBuffer.RejectionMeansAllMoreUrgent | bpqringbuffer.go:48-51 | a refused push changes nothing, every held entry is strictly more urgent than the refused one, and in the canonical shape the buffer is full |
| RingBuffer.PushKeepsCanonical | bpqringbuffer.go:45-82 | Push, admitted or not, keeps the canonical shape |
| RingBuffer.PinnedEndRefusesFreeSlot | bpqringbuffer.go:58-61 | as written, capacity 2 after push(1,1), push(2,2), pop holds one entry and still refuses push(3,3) |
| RingBuffer.PinnedEndLosesEntry | bpqringbuffer.go:58-61 | as written, capacity 2 after push, push, pop, pop admits push(3,5) yet the next pop reports `NoElementsError` |
| RingBuffer.PopUnpinning | bpqringbuffer.go:84-98 | the corrected pop returns what Pop returns and leaves the same slots and `startIndex`; only `endIndex` may differ |
| RingBuffer.PopUnpinningKeepsCanonical | bpqringbuffer.go:84-98 | the corrected pop returns what Pop returns and leaves the same run, keeps the canonical shape, and after a successful pop `endIndex` names the free slot after the run |
| RingRuns.PushAllSorts | bpqringbuffer.go:45-82 | up to capacity pushes into a fresh buffer leave exactly the reference sort of the pushed entries, in the canonical shape |
| RingRuns.PopTimesTakesPrefix | bpqringbuffer.go:84-98 | `k` pops from a run of at least `k` entries return the items of its first `k` entries in order and leave the remaining entries |
| RingRuns.PushesThenPopsInOrder | bpq_test.go:213-247 | popping a buffer filled from fresh with at most capacity pushes returns the items in the reference sorted order, then `NoElementsError` |
| RingRuns.PopsFollowAnySort | bpq_test.go:223-246 | with pairwise distinct priorities, pops from a buffer filled with at most capacity pushes follow any ascending arrangement of the pushed entries, such as the one `sort.Sort` gives, and then fail |
| Entries.Swap | bpqboundedheap.go:154-156 | exchanging two slots puts each one's entry in the other's place and leaves every other slot alone (also the tuple swap at bpqringbuffer.go:73) |
| Entries.SortByPriorityPermutes | bpq_test.go:237-246 | the reference order the random test sorts by is a sorted permutation of the pushed entries |
| Entries.SortedPermutationUnique | bpq_test.go:223-231 | with distinct priorities the sorted order of the entries is unique, so any sorted arrangement equals it |
| BoundedHeap.MakeBoundedHeap | bpqboundedheap.go:28-40 | a fresh heap has the requested capacity, holds nothing, is heap ordered and tracked |
| BoundedHeap.ParentOfIndex | bpqboundedheap.go:158-160 | the parent of slot 0 is slot 0, as Go's truncating division gives; every other slot's parent is an earlier slot that has it as a child |
| BoundedHeap.ChildrenOfIndex | bpqboundedheap.go:162-164 | the two children are adjacent later slots whose parent is the slot |
| BoundedHeap.BubbleUp | bpqboundedheap.go:145-152 | sifting up from a slot never moves the slots after it |
| BoundedHeap.SwapTarget | bpqboundedheap.go:120-140 | the slot bubbleDown swaps with is a child strictly more urgent than the sifted entry and no less urgent than any child, or the slot itself when no child is more urgent |
| BoundedHeap.BubbleDown | bpqboundedheap.go:117-143 | the returned slot holds the sifted entry, lies in the occupied prefix, and only occupied slots from the start slot on change; entries not more urgent than the sifted one stay |
| BoundedHeap.ScanFrom | bpqboundedheap.go:56-63 | the scan from a slot returns a slot of maximum priority among the scanned ones and the starting best, and the last such slot among the scanned ones |
| BoundedHeap.MoveLastToRoot | bpqboundedheap.go:102-104 | moving the last held entry to the root keeps the slot array's length; its effect on the held entries is stated by `MoveLastToRootShape` and `MoveLastToRootRemovesRoot` |
| BoundedHeap.MoveLastToRootShape | bpqboundedheap.go:102-104 | after the move exactly the first `nextSlot - 1` slots are in use, slots other than the root and the last are unchanged, and the root holds the moved entry with heap order broken only there |
| BoundedHeap.MoveLastToRootRemovesRoot | bpqboundedheap.go:102-104 | the held entries after the move are the old ones minus the old root |
| BoundedHeap.HighestPriorityIndex | bpqboundedheap.go:56-64 | the rescan returns the last slot holding the maximum priority over all slots |
| BoundedHeap.Push | bpqboundedheap.go:42-88 | Push never changes the capacity, keeps indices in range, and a refused push leaves the heap as it was |
| BoundedHeap.Pop | bpqboundedheap.go:90-115 | Pop never changes the capacity; a failed pop reports `NoElementsError` and leaves the heap as it was |
| BoundedHeap.BubbleUpPermutes | bpqboundedheap.go:145-156 | sifting up only permutes the occupied prefix |
| BoundedHeap.BubbleDownPermutes | bpqboundedheap.go:117-156 | sifting down only permutes the occupied prefix |
| BoundedHeap.BubbleUpRestores | bpqboundedheap.go:145-152 | sifting up from the one slot that may be more urgent than its parent restores heap order |
| BoundedHeap.BubbleDownRestores | bpqboundedheap.go:117-143 | sifting down from the one slot that may be less urgent than its children restores heap order |
| BoundedHeap.HeapRootIsMinimum | bpqboundedheap.go:97 | in a heap-ordered prefix slot 0 is a most urgent entry |
| BoundedHeap.PopTakesMinimum | bpqboundedheap.go:90-115 | Pop fails if and only if the heap is empty; otherwise it returns the item of slot 0, a most urgent entry, removes exactly that entry and keeps heap order |
| BoundedHeap.PopKeepsHeap | bpqboundedheap.go:97-114 | a successful pop keeps heap order, shrinks `nextSlot` by one and removes exactly the root entry |
| BoundedHeap.PopKeepsTracked | bpqboundedheap.go:99-111 | Pop keeps `highestPriorityIndex` on a least urgent occupied slot, following the moved entry when it was the last slot |
| BoundedHeap.PushWhenFull | bpqboundedheap.go:43-69 | a full tracked heap admits a push if and only if it is strictly more urgent than the tracked worst; an admission trades exactly the worst entry for the new one, keeps heap order and tracking, and the index is the last slot of maximum priority |
| BoundedHeap.ReplaceAndSiftUp | bpqboundedheap.go:45-51 | overwriting a slot with a more urgent entry and sifting up keeps heap order and swaps exactly that entry in |
| BoundedHeap.AppendAndSiftUp | bpqboundedheap.go:72-81 | appending at `nextSlot` and sifting up keeps heap order and adds exactly the new entry |
| BoundedHeap.PushAdmitsWhenNotFull | bpqboundedheap.go:70-87 | as written, a push into any heap with a free slot is admitted, whatever the index names and whether or not the slots are in heap order; it grows `nextSlot` by one and adds exactly the new entry |
| BoundedHeap.PushWhenNotFull | bpqboundedheap.go:70-87 | a push with a free slot is admitted, grows `nextSlot` by one, adds exactly the new entry and keeps heap order |
| BoundedHeap.StaleIndexRefusesPush | bpqboundedheap.go:76-82 | as written, capacity 4 after pushes at priorities 1, 5, 3, 2 holds priority 5 in slot 3 but the index is stale and a push at priority 4 is refused |
| BoundedHeap.StaleIndexBreaksOrder | bpqboundedheap.go:76-82 | as written, capacity 5 after pushes at priorities 4, 3, 1, 2, 5 is not heap ordered and pops items 1, 3, 2, 4, 5 |
| BoundedHeap.BubbleUpTracking | bpqboundedheap.go:145-152 | the corrected sift-up is the same sift-up and reports the slot the tracked entry moved to |
| BoundedHeap.PushTracked | bpqboundedheap.go:42-88 | the corrected push admits exactly when Push does and leaves the same slots; only the tracked index differs |
| BoundedHeap.PushTrackedKeepsTracked | bpqboundedheap.go:42-88 | the corrected push is admitted if and only if a slot is free or some held entry is less urgent, and keeps heap order and tracking |
| BoundedHeap.TrackedIndexAdmits | bpqboundedheap.go:76-82 | with the corrected push the scenario of `StaleIndexRefusesPush` tracks slot 3 and admits the push at priority 4 |
| BoundedHeap.OrderingPushesAgree | bpqboundedheap.go:70-87 | pushing priorities 10, 5 and 100 into an empty heap of at least three slots ends in the same state with the written push as with the corrected one, with the index on slot 2 |
| Bpq.BPQWithCapacity | bpq.go:24-33 | a fresh queue is a ring buffer if and only if the capacity is at most 128, has the requested capacity, holds nothing and is valid |
| Bpq.Push | bpq.go:11-14 | a push never changes the capacity or the strategy |
| Bpq.Pop | bpq.go:15-18 | a pop never changes the capacity or the strategy |
| Bpq.PopMeetsContract | bpq.go:15-18 | every pop keeps the queue valid, fails with `NoElementsError` exactly when the queue is empty and then changes nothing, and otherwise returns a most urgent item and loses exactly that entry |
| Bpq.RingPopMeetsContract | bpqringbuffer.go:84-98 | the corrected ring pop meets the pop contract and keeps the canonical shape |
| Bpq.HeapPopMeetsContract | bpqboundedheap.go:90-115 | the heap pop meets the pop contract and keeps heap order and tracking |
| Bpq.PushMeetsContract | bpq.go:11-14 | every push keeps the queue valid; it is refused only when the queue is full and no held entry can be displaced, and then changes nothing; otherwise it adds the entry or trades a least urgent one for it |
| Bpq.RingPushMeetsContract | bpqringbuffer.go:45-82 | the ring push meets the push contract with ties admitted and keeps the canonical shape |
| Bpq.PinnedPushHeld | bpqringbuffer.go:48-61 | on a full canonical ring a push is admitted if and only if it is at most the last priority, and then trades exactly the last entry for the new one |
| Bpq.HeapPushMeetsContract | bpqboundedheap.go:42-88 | the corrected heap push meets the push contract with ties refused and keeps heap order and tracking |
| BpqScenarios.FreePush | bpq.go:11-14 | with a free slot a push is admitted and adds exactly its entry |
| BpqScenarios.FullPush | bpq.go:11-14 | on a full queue with a unique least urgent entry, a push is admitted if and only if it displaces that entry, and then trades that entry for the new one |
| BpqScenarios.MinimumPop | bpq.go:15-18 | when one held entry is strictly most urgent, Pop returns its item and removes it |
| BpqScenarios.EmptyPopFails | bpq_test.go:30-48 | popping a fresh queue of either strategy fails with `NoElementsError` |
| BpqScenarios.PushThenPop | bpq_test.go:52-100 | on a fresh queue one push then a pop returns the pushed item, and a second pop fails |
| BpqScenarios.PopsInPriorityOrder | bpq_test.go:213-247 | a valid queue holding entries of distinct priorities pops their items in ascending priority, then fails |
| BpqScenarios.PriorityOrdering | bpq_test.go:104-127 | with capacity at least 3, pushing items 1, 2, 3 at priorities 10, 5, 100 pops 2, 1, 3 and then fails, for both strategies |
| BpqScenarios.RefusedWhenFull | bpq.go:11-14 | a full queue of distinct priorities refuses a push that does not displace the least urgent entry and keeps what it holds |
| BpqScenarios.AdmittedWhenFull | bpq.go:11-14 | a full queue of distinct priorities admits a push more urgent than every entry, which evicts the least urgent entry |
| BpqScenarios.OverFillEvicts | bpq_test.go:141-143 | in the overfill scenario pushes at priorities 50, 5 and 1 leave the five most urgent entries |
| BpqScenarios.OverFillRefuses | bpq_test.go:144-145 | in the overfill scenario pushes at priorities 50 and 35 are refused and change nothing held |
| BpqScenarios.OverFill | bpq_test.go:133-167 | capacity 5, items 1 to 10 at priorities 10, 11, 20, 30, 40, 50, 5, 1, 50, 35 pop as 8, 7, 1, 2, 3 and the sixth pop fails |
| BpqAsWritten.PushAsWritten | bpq.go:11-14 | the written push never changes the capacity or the strategy, and on a ring buffer it is the push the corrected queue uses |
| BpqAsWritten.PopAsWritten | bpq.go:15-18 | the written pop never changes the capacity or the strategy, and on a heap it is the pop the corrected queue uses |
| BpqAsWritten.PopAgrees | bpqringbuffer.go:84-98 | from queues that differ at most in `endIndex`, the corrected pop and the written pop return the same result and leave queues that again differ at most there |
| BpqAsWritten.PopTimesAgree | bpqringbuffer.go:84-98 | from such queues, any number of corrected pops and written pops return the same sequence of results |
| BpqAsWritten.EmptyPopFailsAsWritten | bpq_test.go:30-48 | with the strategies as written, popping a fresh queue of either strategy fails with `NoElementsError` |
| BpqAsWritten.PushThenPopAsWritten | bpq_test.go:52-100 | with the strategies as written, one push into a fresh queue then a pop returns the pushed item, and a second pop fails |
| BpqAsWritten.PriorityOrderingAsWritten | bpq_test.go:104-127 | with the strategies as written and capacity at least 3, pushing items 1, 2, 3 at priorities 10, 5, 100 pops 2, 1, 3 and then fails |
| BpqAsWritten.OverFillPushesAsWritten | bpq_test.go:136-145 | the over-fill pushes as written are, on a ring buffer, the pushes of the corrected queue |
| BpqAsWritten.OverFillAsWritten | bpq_test.go:133-167 | with the ring buffer as written, capacity 5, items 1 to 10 at priorities 10, 11, 20, 30, 40, 50, 5, 1, 50, 35 pop as 8, 7, 1, 2, 3 and the sixth pop fails |

## Left out

- The `String()` formatters (bpqringbuffer.go:18-28, bpqboundedheap.go:20-26) only produce `fmt` output.
- The benchmarks and the random-number plumbing of the seeded tests are left out. Their ordering claim is stated for every input instead:
  - for the ring buffer as written, by `RingRuns.PushesThenPopsInOrder` and `RingRuns.PopsFollowAnySort`;
  - for the corrected queue, by `BpqScenarios.PopsInPriorityOrder`.
- For the heap as written the ordering claim is false: `BoundedHeap.StaleIndexBreaksOrder` pushes five distinct priorities into five slots, and they pop out of order.
- RingBuffer.SiftBack: its own contract gives only the length. What the loop computes is stated by `SiftBackView` and `SiftBackSeqInserts`.
- BoundedHeap.MoveLastToRoot: its own contract gives only the length. Its effect is stated by `MoveLastToRootShape` and `MoveLastToRootRemovesRoot`, which keeps the pop proofs small.
- Concurrency: the package has none and does no synchronization.
- Go's fixed-width `int` is not modelled. Priorities are only compared, so unbounded integers behave the same. The `math.MinInt64` start of the rescan is modelled as starting at slot 0, which every slot's priority reaches.
- Non-positive capacities are excluded by `requires capacity >= 1`. In Go, `make` panics on a negative length, and a zero-capacity ring buffer panics on its first Push or Pop.
- The third branch of `bubbleDownIndex` (bpqboundedheap.go:137-139) is not modelled. It is unreachable: the right child is the left child plus one, so it is never in the heap without the left one.
- Go's dynamic `interface{}` items and type assertions are a type parameter `T`.
- Bpq.Pop: uses the corrected ring buffer pop `RingBuffer.PopUnpinning` rather than bpqringbuffer.go:84-98 as written, because the written pop breaks the queue's contract (see Findings).
- Bpq.Push: uses the corrected heap push `BoundedHeap.PushTracked` rather than bpqboundedheap.go:42-88 as written, for the same reason.
- BoundedHeap.PushWhenNotFull: concludes that the index stays tracked only when the heap was empty or the new entry is less urgent than the tracked one, because the written code lets the index go stale (see Findings).
- The promise at bpq.go:12-13 (a push fails only when the queue is full and every held entry is more urgent) is proved for the corrected queue (`Bpq.PushMeetsContract`). For the ring buffer as written it holds only in the canonical shape (`RingBuffer.RejectionMeansAllMoreUrgent`); for the heap as written a push with a free slot is always admitted (`BoundedHeap.PushAdmitsWhenNotFull`), so only a full heap can refuse against the promise, and a full heap keeps it while tracked (`BoundedHeap.PushWhenFull`).

## Findings

| source | as written | input that shows it | evidently intended | confidence | as-written member | corrected member |
|---|---|---|---|---|---|---|
| bpqringbuffer.go:58-61 | Pop advances `startIndex` but leaves `endIndex` pinned on a slot of the run, so a pinned `endIndex` survives a pop that frees a slot | capacity 2: push(1,1), push(2,2), pop, then push(3,3) is refused with a free slot; after a second pop, push(3,5) is admitted and the next pop reports `NoElementsError` | after a pop from a pinned buffer, `endIndex` names the free slot after the run | high (not executed) | RingBuffer.PinnedEndRefusesFreeSlot | RingBuffer.PopUnpinningKeepsCanonical |
| bpqboundedheap.go:76-82 | a non-full push sifts the new entry up without moving `highestPriorityIndex` with the entry it displaces, and skips the sift-up whenever the new entry outranks the slot the stale index names | capacity 4, priorities 1, 5, 3, 2: the index names a slot holding 2 while 5 sits in slot 3, and a push at 4 is refused; capacity 5, priorities 4, 3, 1, 2, 5: heap order breaks and pops return 1, 3, 2, 4, 5 | the index follows the tracked entry through the sift-up, so it always names a least urgent slot | high (not executed) | BoundedHeap.StaleIndexRefusesPush | BoundedHeap.PushTrackedKeepsTracked |

=== FILE: bounded_heap.dfy ===
/** The bounded binary min-heap strategy (`bpqBoundedHeapImpl`), chosen for
    capacities above 128. Slots `[0, nextSlot)` are meant to hold the entries
    as an array heap, every slot no more urgent than its parent, and
    `highestPriorityIndex` is meant to name a least urgent entry, the one a
    full push evicts. The written non-full push can break both
    (`StaleIndexBreaksOrder`, `StaleIndexRefusesPush`). */
module BoundedHeap {
  import opened Entries

  datatype HeapState<T> = HeapState(entries: seq<Entry<T>>, nextSlot: int, highestPriorityIndex: int)

  /** The index ranges every operation relies on. */
  ghost predicate WellIndexed<T>(s: HeapState<T>)
  {
    && |s.entries| >= 1
    && 0 <= s.nextSlot <= |s.entries|
    && 0 <= s.highestPriorityIndex < |s.entries|
  }

  /** `Capacity`: the length of the slot array, fixed at construction. */
  function Capacity<T>(s: HeapState<T>): int
  {
    |s.entries|
  }

  /** The held entries, in slot order. */
  function Contents<T>(s: HeapState<T>): seq<Entry<T>>
    requires WellIndexed(s)
  {
    s.entries[..s.nextSlot]
  }

  /** `makeBoundedHeap`: `capacity` unused slots holding Go's nil item and
      priority 0, `nextSlot` and `highestPriorityIndex` both 0. */
  function MakeBoundedHeap<T>(capacity: int, nil: T): (s: HeapState<T>)
    requires capacity >= 1
    ensures Capacity(s) == capacity
    ensures Valid(s) && Tracked(s) && Contents(s) == []
  {
    HeapState(seq(capacity, _ => Entry(nil, 0, false)), 0, 0)
  }

  // ---------------------------------------------------------------------
  // Index arithmetic
  // ---------------------------------------------------------------------

  /** `parentOfIndex`: Go's `(index - 1) / 2` truncates toward zero, so the
      root is its own parent; every other slot is a child of its parent. */
  function ParentOfIndex(index: int): (p: int)
    requires index >= 0
    ensures index == 0 ==> p == 0
    ensures index > 0 ==> 0 <= p < index && (index == 2 * p + 1 || index == 2 * p + 2)
  {
    if index == 0 then 0 else (index - 1) / 2
  }

  /** `childrenOfIndex`: both children lie after `index`, side by side, and
      each has `index` as its parent. */
  function ChildrenOfIndex(index: int): (c: (int, int))
    requires index >= 0
    ensures index < c.0 && c.1 == c.0 + 1
    ensures ParentOfIndex(c.0) == index && ParentOfIndex(c.1) == index
  {
    (index * 2 + 1, index * 2 + 2)
  }

  // ---------------------------------------------------------------------
  // Heap order
  // ---------------------------------------------------------------------

  /** Every slot of `[1, size)` is no more urgent than its parent. */
  ghost predicate HeapOrdered<T>(e: seq<Entry<T>>, size: int)
    requires 0 <= size <= |e|
  {
    forall j | 0 < j < size :: e[ParentOfIndex(j)].priority <= e[j].priority
  }

  /** Heap order everywhere except possibly between slot `i` and its parent,
      with the parent of `i` no less urgent than the children of `i`: the
      shape during a sift up. */
  ghost predicate HeapExceptUp<T>(e: seq<Entry<T>>, size: int, i: int)
    requires 0 <= i < size <= |e|
  {
    && (forall j | 0 < j < size && j != i :: e[ParentOfIndex(j)].priority <= e[j].priority)
    && (forall j | 0 < j < size && ParentOfIndex(j) == i :: e[ParentOfIndex(i)].priority <= e[j].priority)
  }

  /** Heap order everywhere except possibly between slot `i` and its
      children, with the parent of `i` no less urgent than those children:
      the shape during a sift down. */
  ghost predicate HeapExceptDown<T>(e: seq<Entry<T>>, size: int, i: int)
    requires 0 <= i < size <= |e|
  {
    && (forall j | 0 < j < size && ParentOfIndex(j) != i :: e[ParentOfIndex(j)].priority <= e[j].priority)
    && (i > 0 ==> forall j | 0 < j < size && ParentOfIndex(j) == i :: e[ParentOfIndex(i)].priority <= e[j].priority)
  }

  /** Slots `[0, nextSlot)` are in use and heap ordered; the rest are free. */
  ghost predicate Valid<T>(s: HeapState<T>)
  {
    && WellIndexed(s)
    && (forall k | 0 <= k < |s.entries| :: s.entries[k].inUse <==> k < s.nextSlot)
    && HeapOrdered(s.entries, s.nextSlot)
  }

  /** No entry of `[0, size)` is less urgent than `bound`. */
  ghost predicate AllAtMost<T>(e: seq<Entry<T>>, size: int, bound: int)
    requires 0 <= size <= |e|
  {
    forall k | 0 <= k < size :: e[k].priority <= bound
  }

  /** `highestPriorityIndex` names a least urgent held entry, and slot 0
      while the heap is empty. */
  ghost predicate Tracked<T>(s: HeapState<T>)
    requires WellIndexed(s)
  {
    if s.nextSlot == 0 then s.highestPriorityIndex == 0
    else
      && s.highestPriorityIndex < s.nextSlot
      && AllAtMost(s.entries, s.nextSlot, s.entries[s.highestPriorityIndex].priority)
  }

  // ---------------------------------------------------------------------
  // Sifting
  // ---------------------------------------------------------------------

  /** `bubbleUpIndex`: while the parent is strictly less urgent, swap the
      entry with it and continue from the parent. At the root the parent is
      the slot itself and the loop stops. Slots after `index` are never
      touched. */
  function BubbleUp<T>(e: seq<Entry<T>>, index: int): (r: seq<Entry<T>>)
    requires 0 <= index < |e|
    ensures |r| == |e|
    ensures forall k | index < k < |e| :: r[k] == e[k]
    decreases index
  {
    var parent := ParentOfIndex(index);
    if e[parent].priority > e[index].priority then BubbleUp(Swap(e, index, parent), parent)
    else e
  }

  /** The branches of `bubbleDownIndex`: the child the entry at `index`
      swaps with, or `index` itself when it stays. With two children in the
      heap `[0, size)` the more urgent one is chosen (the right one on a
      tie); with only the left child, that one; and the swap happens only
      when the chosen child is strictly more urgent. The source's third
      branch, for a right child without a left one, is left out: the right
      child is the left one plus one, so it never applies. */
  function SwapTarget<T>(e: seq<Entry<T>>, size: int, index: int): (m: int)
    requires 0 <= index < |e| && size <= |e|
    ensures m == index || (index < m < size && ParentOfIndex(m) == index)
    ensures m != index ==> e[m].priority < e[index].priority
    ensures forall j | 0 < j < size && ParentOfIndex(j) == index ::
              e[m].priority <= e[j].priority
  {
    var (left, right) := ChildrenOfIndex(index);
    assert forall j | 0 < j < size && ParentOfIndex(j) == index :: j == left || j == right;
    if left < size && right < size then
      if e[left].priority < e[right].priority then
        if e[left].priority < e[index].priority then left else index
      else
        if e[right].priority < e[index].priority then right else index
    else if left < size && e[left].priority < e[index].priority then left
    else index
  }

  /** `bubbleDownIndex` over the heap `[0, size)`: swap the entry with the
      child `SwapTarget` picks and continue from there until it stays;
      return the slot the entry ends in. */
  function BubbleDown<T>(e: seq<Entry<T>>, size: int, index: int): (r: (seq<Entry<T>>, int))
    requires 0 <= index < |e| && size <= |e|
    ensures |r.0| == |e| && index <= r.1 < |e|
    ensures index < size ==> r.1 < size
    ensures r.0[r.1] == e[index]
    ensures forall k | 0 <= k < |e| && (k < index || size <= k) :: r.0[k] == e[k]
    ensures forall k | 0 <= k < |e| && k != index && e[index].priority <= e[k].priority :: r.0[k] == e[k]
    decreases |e| - index
  {
    var m := SwapTarget(e, size, index);
    if m == index then (e, index)
    else BubbleDown(Swap(e, m, index), size, m)
  }

  /** The rescan after a full push: the last slot holding the highest
      priority value over all slots. */
  function HighestPriorityIndex<T>(e: seq<Entry<T>>): (r: int)
    requires |e| >= 1
    ensures 0 <= r < |e|
    ensures forall k | 0 <= k < |e| :: e[k].priority <= e[r].priority
    ensures forall k | r < k < |e| :: e[k].priority < e[r].priority
  {
    ScanFrom(e, 1, 0)
  }

  /** The `>=` scan from slot `i` on, with `best` the slot chosen so far:
      the result is `best` or a later slot, at least as high as `best`, and
      the last slot from `i` on holding the highest value. */
  function ScanFrom<T>(e: seq<Entry<T>>, i: int, best: int): (r: int)
    requires 0 <= best < |e| && 0 <= i <= |e|
    ensures 0 <= r < |e| && (r == best || i <= r)
    ensures e[best].priority <= e[r].priority
    ensures forall k | i <= k < |e| :: e[k].priority <= e[r].priority
    ensures forall k | i <= k < |e| && r < k :: e[k].priority < e[r].priority
    decreases |e| - i
  {
    if i == |e| then best
    else if e[i].priority >= e[best].priority then ScanFrom(e, i + 1, i)
    else ScanFrom(e, i + 1, best)
  }

  // ---------------------------------------------------------------------
  // Operations
  // ---------------------------------------------------------------------

  /** `Push`. When full: admit only a priority strictly below that of the
      slot `highestPriorityIndex` names, overwrite that slot, sift it up and
      rescan for the new highest. When not full: write at `nextSlot`; if the
      priority is strictly above the one at `highestPriorityIndex`, that
      index moves to the new slot without sifting, otherwise the new entry
      is sifted up and the index is left alone. */
  function Push<T>(s: HeapState<T>, item: T, priority: int): (r: (HeapState<T>, bool))
    requires WellIndexed(s)
    ensures WellIndexed(r.0) && Capacity(r.0) == Capacity(s)
    ensures !r.1 ==> r.0 == s
  {
    var hpi := s.highestPriorityIndex;
    if s.nextSlot == |s.entries| then
      if priority < s.entries[hpi].priority then
        var replaced := BubbleUp(s.entries[hpi := Admitted(item, priority)], hpi);
        (HeapState(replaced, s.nextSlot, HighestPriorityIndex(replaced)), true)
      else
        (s, false)
    else
      var written := s.entries[s.nextSlot := Admitted(item, priority)];
      if priority > written[hpi].priority then
        (HeapState(written, s.nextSlot + 1, s.nextSlot), true)
      else
        (HeapState(BubbleUp(written, s.nextSlot), s.nextSlot + 1, hpi), true)
  }

  /** `Pop`: fail on an empty heap; otherwise take the root's item, move the
      last held entry to the root, free the last slot and sift the root
      down. When the moved entry was the one `highestPriorityIndex` named,
      the index follows it. */
  function Pop<T>(s: HeapState<T>): (r: (HeapState<T>, PopResult<T>))
    requires WellIndexed(s)
    ensures WellIndexed(r.0) && Capacity(r.0) == Capacity(s)
    ensures r.1.Failed? ==> r.0 == s && r.1.error == NoElementsError
  {
    if s.nextSlot == 0 then
      (s, Failed(NoElementsError))
    else
      var last := s.nextSlot - 1;
      var poppingHighest := last == s.highestPriorityIndex;
      var cleared := MoveLastToRoot(s.entries, last);
      if cleared[0].inUse then
        var sifted := BubbleDown(cleared, last, 0);
        var hpi := if poppingHighest then sifted.1 else s.highestPriorityIndex;
        (HeapState(sifted.0, last, hpi), Popped(s.entries[0].item))
      else
        (HeapState(cleared, last, s.highestPriorityIndex), Popped(s.entries[0].item))
  }

  /** The first step of Pop: slot `last` is copied to the root, then slot
      `last` is marked unused (so when `last` is the root, the root ends up
      unused). */
  function MoveLastToRoot<T>(e: seq<Entry<T>>, last: int): (r: seq<Entry<T>>)
    requires 0 <= last < |e|
    ensures |r| == |e|
  {
    var moved := e[0 := e[last]];
    moved[last := moved[last].(inUse := false)]
  }

  // ---------------------------------------------------------------------
  // Swaps permute the heap
  // ---------------------------------------------------------------------

  /** A swap inside `[0, size)` permutes that prefix and leaves the rest. */
  lemma SwapPermutesPrefix<T>(e: seq<Entry<T>>, i: int, j: int, size: int)
    requires 0 <= i < size && 0 <= j < size && size <= |e|
    ensures multiset(Swap(e, i, j)[..size]) == multiset(e[..size])
  {
    var a := e[..size];
    assert Swap(e, i, j)[..size] == a[i := a[j]][j := a[i]];
  }

  /** `bubbleUpIndex` only swaps slots of `[0, size)` when it starts inside. */
  lemma {:induction false} BubbleUpPermutes<T>(e: seq<Entry<T>>, index: int, size: int)
    requires 0 <= index < size <= |e|
    ensures multiset(BubbleUp(e, index)[..size]) == multiset(e[..size])
    decreases index
  {
    var parent := ParentOfIndex(index);
    if e[parent].priority > e[index].priority {
      SwapPermutesPrefix(e, index, parent, size);
      BubbleUpPermutes(Swap(e, index, parent), parent, size);
    }
  }

  /** `bubbleDownIndex` only swaps slots of `[0, size)`. */
  lemma {:induction false} BubbleDownPermutes<T>(e: seq<Entry<T>>, size: int, index: int)
    requires 0 <= index < size <= |e|
    ensures multiset(BubbleDown(e, size, index).0[..size]) == multiset(e[..size])
    decreases |e| - index
  {
    var m := SwapTarget(e, size, index);
    if m != index {
      SwapPermutesPrefix(e, m, index, size);
      BubbleDownPermutes(Swap(e, m, index), size, m);
    }
  }

  /** A permutation of `[0, size)` keeps any property every slot of the
      original had. */
  lemma PermutedPrefixKeeps<T>(a: seq<Entry<T>>, b: seq<Entry<T>>, size: int, good: Entry<T> -> bool)
    requires 0 <= size <= |a| && size <= |b|
    requires multiset(a[..size]) == multiset(b[..size])
    requires forall k | 0 <= k < size :: good(b[k])
    ensures forall k | 0 <= k < size :: good(a[k])
  {
    forall k | 0 <= k < size
      ensures good(a[k])
    {
      assert a[..size][k] == a[k];
      assert a[k] in multiset(b[..size]);
      var j :| 0 <= j < size && b[..size][j] == a[k];
    }
  }

  // ---------------------------------------------------------------------
  // Sifting restores heap order
  // ---------------------------------------------------------------------

  /** In a heap, the root is a most urgent entry. */
  lemma HeapRootIsMinimum<T>(e: seq<Entry<T>>, size: int)
    requires 0 <= size <= |e| && HeapOrdered(e, size)
    ensures forall k | 0 <= k < size :: e[0].priority <= e[k].priority
  {
    forall k | 0 <= k < size
      ensures e[0].priority <= e[k].priority
    {
      RootBelow(e, size, k);
    }
  }

  /** The root is no less urgent than slot `k`, following parents to it. */
  lemma {:induction false} RootBelow<T>(e: seq<Entry<T>>, size: int, k: int)
    requires 0 <= k < size <= |e| && HeapOrdered(e, size)
    ensures e[0].priority <= e[k].priority
    decreases k
  {
    if k > 0 {
      RootBelow(e, size, ParentOfIndex(k));
    }
  }

  /** Writing an entry no less urgent than the one it replaces leaves the
      shape of a sift up at that slot. */
  lemma LowerWriteExceptUp<T>(e: seq<Entry<T>>, size: int, i: int, x: Entry<T>)
    requires 0 <= i < size <= |e| && HeapOrdered(e, size)
    requires x.priority <= e[i].priority
    ensures HeapExceptUp(e[i := x], size, i)
  {
    var w := e[i := x];
    forall j | 0 < j < size && ParentOfIndex(j) == i
      ensures w[ParentOfIndex(i)].priority <= w[j].priority
    {
      if i > 0 {
        assert e[ParentOfIndex(i)].priority <= e[i].priority;
      }
    }
  }

  /** One swap of a sift up moves the out-of-order slot to the parent. */
  lemma BubbleUpSwapStep<T>(e: seq<Entry<T>>, size: int, i: int)
    requires 0 <= i < size <= |e| && HeapExceptUp(e, size, i)
    requires e[ParentOfIndex(i)].priority > e[i].priority
    ensures 0 < i && HeapExceptUp(Swap(e, i, ParentOfIndex(i)), size, ParentOfIndex(i))
  {
    var p := ParentOfIndex(i);
    var w := Swap(e, i, p);
    forall j | 0 < j < size && j != p
      ensures w[ParentOfIndex(j)].priority <= w[j].priority
    {
      var q := ParentOfIndex(j);
      if j == i {
      } else if q == i {
      } else if q == p {
        assert e[p].priority <= e[j].priority;
      } else {
        assert w[q] == e[q] && w[j] == e[j];
      }
    }
    forall j | 0 < j < size && ParentOfIndex(j) == p
      ensures w[ParentOfIndex(p)].priority <= w[j].priority
    {
      var pp := ParentOfIndex(p);
      if p > 0 {
        assert e[pp].priority <= e[p].priority;
        if j != i {
          assert e[p].priority <= e[j].priority;
        }
      }
    }
  }

  /** `bubbleUpIndex` turns the shape of a sift up into a heap. */
  lemma {:induction false} BubbleUpRestores<T>(e: seq<Entry<T>>, size: int, i: int)
    requires 0 <= i < size <= |e| && HeapExceptUp(e, size, i)
    ensures HeapOrdered(BubbleUp(e, i), size)
    decreases i
  {
    var p := ParentOfIndex(i);
    if e[p].priority > e[i].priority {
      BubbleUpSwapStep(e, size, i);
      BubbleUpRestores(Swap(e, i, p), size, p);
    } else {
      forall j | 0 < j < size
        ensures e[ParentOfIndex(j)].priority <= e[j].priority
      {
      }
    }
  }

  /** One swap of a sift down moves the out-of-order slot to the chosen
      child, the most urgent one. */
  lemma BubbleDownSwapStep<T>(e: seq<Entry<T>>, size: int, i: int, m: int)
    requires 0 <= i < size <= |e| && HeapExceptDown(e, size, i)
    requires 0 < m < size && ParentOfIndex(m) == i && e[m].priority < e[i].priority
    requires forall j | 0 < j < size && ParentOfIndex(j) == i :: e[m].priority <= e[j].priority
    ensures HeapExceptDown(Swap(e, m, i), size, m)
  {
    var w := Swap(e, m, i);
    forall j | 0 < j < size && ParentOfIndex(j) != m
      ensures w[ParentOfIndex(j)].priority <= w[j].priority
    {
      var q := ParentOfIndex(j);
      if j == m {
      } else if q == i {
      } else if j == i {
        assert e[ParentOfIndex(i)].priority <= e[m].priority;
      } else {
        assert w[q] == e[q] && w[j] == e[j];
      }
    }
  }

  /** When no child is more urgent, the shape of a sift down is a heap. */
  lemma BubbleDownStops<T>(e: seq<Entry<T>>, size: int, i: int)
    requires 0 <= i < size <= |e| && HeapExceptDown(e, size, i)
    requires forall j | 0 < j < size && ParentOfIndex(j) == i :: e[i].priority <= e[j].priority
    ensures HeapOrdered(e, size)
  {
  }

  /** `bubbleDownIndex` turns the shape of a sift down into a heap. */
  lemma {:induction false} BubbleDownRestores<T>(e: seq<Entry<T>>, size: int, i: int)
    requires 0 <= i < size <= |e| && HeapExceptDown(e, size, i)
    ensures HeapOrdered(BubbleDown(e, size, i).0, size)
    decreases |e| - i
  {
    var m := SwapTarget(e, size, i);
    if m != i {
      BubbleDownSwapStep(e, size, i, m);
      BubbleDownRestores(Swap(e, m, i), size, m);
    } else {
      BubbleDownStops(e, size, i);
    }
  }

  // ---------------------------------------------------------------------
  // Pop
  // ---------------------------------------------------------------------

  /** After the first step of Pop, the slots in use are `[0, size - 1)`, the
      moved entry sits at the root, every other slot below `size - 1` is
      untouched, and the heap has the shape of a sift down at the root. */
  lemma MoveLastToRootShape<T>(e: seq<Entry<T>>, size: int)
    requires 0 < size <= |e|
    requires forall k | 0 <= k < |e| :: e[k].inUse <==> k < size
    requires HeapOrdered(e, size)
    ensures var c := MoveLastToRoot(e, size - 1);
            && (forall k | 0 <= k < |e| :: c[k].inUse <==> k < size - 1)
            && (forall k | 0 < k < |e| && k != size - 1 :: c[k] == e[k])
            && (size > 1 ==> c[0] == e[size - 1] && HeapExceptDown(c, size - 1, 0))
  {
  }

  /** The first step of Pop removes exactly the root from the held entries. */
  lemma MoveLastToRootRemovesRoot<T>(e: seq<Entry<T>>, size: int)
    requires 0 < size <= |e|
    ensures multiset(MoveLastToRoot(e, size - 1)[..size - 1]) == multiset(e[..size]) - multiset{e[0]}
  {
    var c := MoveLastToRoot(e, size - 1);
    if size > 1 {
      assert c[..size - 1] == [e[size - 1]] + e[1..size - 1];
      assert e[..size] == [e[0]] + e[1..size - 1] + [e[size - 1]];
    } else {
      assert e[..size] == [e[0]];
    }
  }

  /** Pop fails exactly on an empty heap, leaving it alone. Otherwise it
      returns the item at the root, a most urgent entry; the held entries
      lose exactly that entry, and the heap stays valid. */
  lemma PopTakesMinimum<T>(s: HeapState<T>)
    requires Valid(s)
    ensures var r := Pop(s);
            && (r.1.Failed? <==> s.nextSlot == 0)
            && (s.nextSlot > 0 ==>
                  && r.1 == Popped(s.entries[0].item)
                  && (forall k | 0 <= k < s.nextSlot :: s.entries[0].priority <= s.entries[k].priority)
                  && Valid(r.0)
                  && r.0.nextSlot == s.nextSlot - 1
                  && multiset(Contents(r.0)) == multiset(Contents(s)) - multiset{s.entries[0]})
  {
    if s.nextSlot > 0 {
      HeapRootIsMinimum(s.entries, s.nextSlot);
      PopKeepsHeap(s);
    }
  }

  /** The heap half of `PopTakesMinimum`. */
  lemma PopKeepsHeap<T>(s: HeapState<T>)
    requires Valid(s) && s.nextSlot > 0
    ensures var r := Pop(s).0;
            && Valid(r)
            && r.nextSlot == s.nextSlot - 1
            && multiset(Contents(r)) == multiset(Contents(s)) - multiset{s.entries[0]}
  {
    var e := s.entries;
    var last := s.nextSlot - 1;
    var c := MoveLastToRoot(e, last);
    MoveLastToRootShape(e, s.nextSlot);
    MoveLastToRootRemovesRoot(e, s.nextSlot);
    if last > 0 {
      var b := BubbleDown(c, last, 0).0;
      BubbleDownRestores(c, last, 0);
      BubbleDownPermutes(c, last, 0);
      PermutedPrefixKeeps(b, c, last, (y: Entry<T>) => y.inUse);
    }
  }

  /** Pop keeps `highestPriorityIndex` on a least urgent entry: the index
      follows the moved entry when that was the one it named, and otherwise
      the entry it names is never swapped, being no more urgent than the
      moved one. */
  lemma PopKeepsTracked<T>(s: HeapState<T>)
    requires Valid(s) && Tracked(s)
    ensures Tracked(Pop(s).0)
  {
    if s.nextSlot > 1 {
      PopSiftTracks(s.entries, s.nextSlot, s.highestPriorityIndex);
      PopSiftState(s);
    }
  }

  /** The state a pop leaves behind when at least two entries are held: the
      sifted array, one slot fewer, and the index following the moved entry
      when it named the last slot. */
  lemma PopSiftState<T>(s: HeapState<T>)
    requires Valid(s) && s.nextSlot > 1
    ensures var last := s.nextSlot - 1;
            var b := BubbleDown(MoveLastToRoot(s.entries, last), last, 0);
            Pop(s).0 == HeapState(b.0, last, if last == s.highestPriorityIndex then b.1 else s.highestPriorityIndex)
  {
    var last := s.nextSlot - 1;
    assert s.entries[last].inUse;
    assert MoveLastToRoot(s.entries, last)[0].inUse;
  }

  /** `PopKeepsTracked` on the backing array. */
  lemma PopSiftTracks<T>(e: seq<Entry<T>>, size: int, hpi: int)
    requires 1 < size <= |e| && HeapOrdered(e, size)
    requires 0 <= hpi < size && AllAtMost(e, size, e[hpi].priority)
    ensures var b := BubbleDown(MoveLastToRoot(e, size - 1), size - 1, 0);
            var moved := if hpi == size - 1 then b.1 else hpi;
            && moved < size - 1
            && b.0[moved].priority == e[hpi].priority
            && AllAtMost(b.0, size - 1, e[hpi].priority)
  {
    var last := size - 1;
    var c := MoveLastToRoot(e, last);
    var b := BubbleDown(c, last, 0);
    var top := e[hpi].priority;
    PopSiftWithin(e, size, top);
    assert c[0] == e[last];
    if hpi != last && hpi != 0 {
      assert c[hpi] == e[hpi];
      assert c[0].priority <= c[hpi].priority;
    }
  }

  /** The entries held after Pop lie between the old root's priority and any
      bound on the old heap. */
  lemma PopSiftWithin<T>(e: seq<Entry<T>>, size: int, top: int)
    requires 1 < size <= |e| && HeapOrdered(e, size) && AllAtMost(e, size, top)
    ensures var b := BubbleDown(MoveLastToRoot(e, size - 1), size - 1, 0).0;
            forall k | 0 <= k < size - 1 :: e[0].priority <= b[k].priority <= top
  {
    HeapRootIsMinimum(e, size);
    MoveLastToRootWithin(e, size, e[0].priority, top);
    SiftDownWithin(MoveLastToRoot(e, size - 1), size - 1, e[0].priority, top);
  }

  /** Moving the last entry to the root keeps the held priorities within any
      bounds they had. */
  lemma MoveLastToRootWithin<T>(e: seq<Entry<T>>, size: int, low: int, top: int)
    requires 1 < size <= |e|
    requires forall k | 0 <= k < size :: low <= e[k].priority <= top
    ensures var c := MoveLastToRoot(e, size - 1);
            forall k | 0 <= k < size - 1 :: low <= c[k].priority <= top
  {
    var c := MoveLastToRoot(e, size - 1);
    forall k | 0 <= k < size - 1
      ensures low <= c[k].priority <= top
    {
      if k == 0 {
        assert c[k] == e[size - 1];
      } else {
        assert c[k] == e[k];
      }
    }
  }

  /** Sifting down keeps the held priorities within any bounds they had. */
  lemma SiftDownWithin<T>(c: seq<Entry<T>>, size: int, low: int, top: int)
    requires 0 < size <= |c|
    requires forall k | 0 <= k < size :: low <= c[k].priority <= top
    ensures var b := BubbleDown(c, size, 0).0;
            forall k | 0 <= k < size :: low <= b[k].priority <= top
  {
    var b := BubbleDown(c, size, 0).0;
    BubbleDownPermutes(c, size, 0);
    forall k | 0 <= k < size
      ensures low <= b[k].priority <= top
    {
      assert b[..size][k] == b[k];
      assert b[k] in multiset(c[..size]);
      var j :| 0 <= j < size && c[..size][j] == b[k];
    }
  }

  // ---------------------------------------------------------------------
  // Push
  // ---------------------------------------------------------------------

  /** A full heap admits exactly the priorities strictly below the one at
      `highestPriorityIndex`, the highest held; ties are refused. Admission
      evicts exactly that entry, keeps the heap valid, and rescans so that
      `highestPriorityIndex` names the last slot holding the highest
      priority. */
  lemma PushWhenFull<T>(s: HeapState<T>, item: T, priority: int)
    requires Valid(s) && Tracked(s) && s.nextSlot == Capacity(s)
    ensures var r := Push(s, item, priority);
            var worst := s.entries[s.highestPriorityIndex];
            && (forall k | 0 <= k < s.nextSlot :: s.entries[k].priority <= worst.priority)
            && (r.1 <==> priority < worst.priority)
            && (r.1 ==> && Valid(r.0) && Tracked(r.0)
                        && r.0.nextSlot == s.nextSlot
                        && multiset(Contents(r.0))
                           == multiset(Contents(s)) - multiset{worst} + multiset{Admitted(item, priority)}
                        && (forall k | r.0.highestPriorityIndex < k < Capacity(s) ::
                              r.0.entries[k].priority < r.0.entries[r.0.highestPriorityIndex].priority))
  {
    var e := s.entries;
    var hpi := s.highestPriorityIndex;
    var x := Admitted(item, priority);
    if priority < e[hpi].priority {
      var b := BubbleUp(e[hpi := x], hpi);
      ReplaceAndSiftUp(e, hpi, x);
      assert Push(s, item, priority).0 == HeapState(b, s.nextSlot, HighestPriorityIndex(b));
      assert e[..|e|] == e && b[..|b|] == b;
    }
  }

  /** The full path of Push on the slot array: replacing a held entry by a
      more urgent one and sifting it up keeps every slot in use and the heap
      ordered, and swaps exactly the replaced entry for the new one. */
  lemma ReplaceAndSiftUp<T>(e: seq<Entry<T>>, i: int, x: Entry<T>)
    requires 0 <= i < |e| && HeapOrdered(e, |e|)
    requires forall k | 0 <= k < |e| :: e[k].inUse
    requires x.inUse && x.priority <= e[i].priority
    ensures var b := BubbleUp(e[i := x], i);
            && (forall k | 0 <= k < |e| :: b[k].inUse)
            && HeapOrdered(b, |e|)
            && multiset(b) == multiset(e) - multiset{e[i]} + multiset{x}
  {
    var w := e[i := x];
    var b := BubbleUp(w, i);
    LowerWriteExceptUp(e, |e|, i, x);
    BubbleUpRestores(w, |e|, i);
    BubbleUpPermutes(w, i, |e|);
    PermutedPrefixKeeps(b, w, |e|, (y: Entry<T>) => y.inUse);
    assert w[..|w|] == w && b[..|b|] == b;
  }

  /** Writing a new entry just after a heap leaves the shape of a sift up at
      the new slot. */
  lemma AppendExceptUp<T>(e: seq<Entry<T>>, size: int, x: Entry<T>)
    requires 0 <= size < |e| && HeapOrdered(e, size)
    ensures HeapExceptUp(e[size := x], size + 1, size)
  {
  }

  /** The sifting branch of a non-full push on the slot array: the new entry
      written after the heap and sifted up joins it, and the slots in use
      grow by one. */
  lemma AppendAndSiftUp<T>(e: seq<Entry<T>>, size: int, x: Entry<T>)
    requires 0 <= size < |e| && HeapOrdered(e, size)
    requires forall k | 0 <= k < |e| :: e[k].inUse <==> k < size
    requires x.inUse
    ensures var b := BubbleUp(e[size := x], size);
            && (forall k | 0 <= k < |e| :: b[k].inUse <==> k < size + 1)
            && HeapOrdered(b, size + 1)
            && multiset(b[..size + 1]) == multiset(e[..size]) + multiset{x}
  {
    AppendExceptUp(e, size, x);
    BubbleUpRestores(e[size := x], size + 1, size);
    AppendSiftAdds(e, size, x);
    AppendSiftInUse(e, size, x);
  }

  /** The held entries after the sifting branch: the old ones and `x`. */
  lemma AppendSiftAdds<T>(e: seq<Entry<T>>, size: int, x: Entry<T>)
    requires 0 <= size < |e|
    ensures multiset(BubbleUp(e[size := x], size)[..size + 1]) == multiset(e[..size]) + multiset{x}
  {
    var w := e[size := x];
    BubbleUpPermutes(w, size, size + 1);
    assert w[..size + 1] == e[..size] + [x];
  }

  /** The slots in use after the sifting branch are `[0, size + 1)`. */
  lemma AppendSiftInUse<T>(e: seq<Entry<T>>, size: int, x: Entry<T>)
    requires 0 <= size < |e| && x.inUse
    requires forall k | 0 <= k < |e| :: e[k].inUse <==> k < size
    ensures var b := BubbleUp(e[size := x], size);
            forall k | 0 <= k < |e| :: b[k].inUse <==> k < size + 1
  {
    var w := e[size := x];
    BubbleUpPermutes(w, size, size + 1);
    PermutedPrefixKeeps(BubbleUp(w, size), w, size + 1, (y: Entry<T>) => y.inUse);
  }

  /** The non-sifting branch of a non-full push on the slot array: an entry
      strictly less urgent than every held one can be placed after the heap
      as it is. */
  lemma AppendHighest<T>(e: seq<Entry<T>>, size: int, x: Entry<T>)
    requires 0 <= size < |e| && HeapOrdered(e, size)
    requires forall k | 0 <= k < size :: e[k].priority < x.priority
    ensures var w := e[size := x];
            && HeapOrdered(w, size + 1)
            && AllAtMost(w, size + 1, x.priority)
            && multiset(w[..size + 1]) == multiset(e[..size]) + multiset{x}
  {
    var w := e[size := x];
    assert w[..size + 1] == e[..size] + [x];
    forall j | 0 < j < size + 1
      ensures w[ParentOfIndex(j)].priority <= w[j].priority
    {
      if j == size {
        assert e[ParentOfIndex(j)].priority < x.priority;
      }
    }
  }

  /** A heap with a free slot always admits, whatever `highestPriorityIndex`
      names and whether or not the slots are in heap order: the held entries
      grow by exactly the new one. */
  lemma PushAdmitsWhenNotFull<T>(s: HeapState<T>, item: T, priority: int)
    requires WellIndexed(s) && s.nextSlot < Capacity(s)
    ensures var r := Push(s, item, priority);
            && r.1
            && r.0.nextSlot == s.nextSlot + 1
            && multiset(Contents(r.0)) == multiset(Contents(s)) + multiset{Admitted(item, priority)}
  {
    var e := s.entries;
    var ns := s.nextSlot;
    var x := Admitted(item, priority);
    var w := e[ns := x];
    assert Contents(s) == e[..ns];
    assert w[..ns + 1] == e[..ns] + [x];
    if priority <= w[s.highestPriorityIndex].priority {
      BubbleUpPermutes(w, ns, ns + 1);
    }
  }

  /** A heap with a free slot always admits: the new entry joins the held
      ones and the heap stays valid. `highestPriorityIndex` stays on a least
      urgent entry when the heap was empty or the new priority is strictly
      the highest. */
  lemma PushWhenNotFull<T>(s: HeapState<T>, item: T, priority: int)
    requires Valid(s) && Tracked(s) && s.nextSlot < Capacity(s)
    ensures var r := Push(s, item, priority);
            && r.1
            && Valid(r.0)
            && r.0.nextSlot == s.nextSlot + 1
            && multiset(Contents(r.0)) == multiset(Contents(s)) + multiset{Admitted(item, priority)}
            && (s.nextSlot == 0 || s.entries[s.highestPriorityIndex].priority < priority ==> Tracked(r.0))
  {
    var e := s.entries;
    var ns := s.nextSlot;
    var hpi := s.highestPriorityIndex;
    var x := Admitted(item, priority);
    var w := e[ns := x];
    assert Contents(s) == e[..ns];
    PushAdmitsWhenNotFull(s, item, priority);
    if priority > w[hpi].priority {
      assert ns > 0 && w[hpi] == e[hpi];
      AppendHighest(e, ns, x);
      var r := HeapState(w, ns + 1, ns);
      assert Push(s, item, priority) == (r, true);
      assert Contents(r) == w[..ns + 1];
    } else {
      var b := BubbleUp(w, ns);
      AppendAndSiftUp(e, ns, x);
      var r := HeapState(b, ns + 1, hpi);
      assert Push(s, item, priority) == (r, true);
      assert Contents(r) == b[..ns + 1];
      if ns == 0 {
        assert b == w;
      }
    }
  }

  // ---------------------------------------------------------------------
  // A stale highestPriorityIndex
  // ---------------------------------------------------------------------

  /** Capacity 4: pushing priorities 1, 5, 3 and 2 leaves 5 in slot 3, but
      the sift of 2 moved `highestPriorityIndex` off it, onto the entry of
      priority 2. The full heap then refuses priority 4 although it holds a
      less urgent entry. */
  lemma StaleIndexRefusesPush()
    ensures var s := Push(Push(Push(Push(MakeBoundedHeap(4, 0), 1, 1).0, 5, 5).0, 3, 3).0, 2, 2).0;
            && Valid(s) && s.nextSlot == Capacity(s)
            && s.entries[3].priority == 5
            && !Tracked(s)
            && !Push(s, 4, 4).1
  {
    var s0 := MakeBoundedHeap(4, 0);
    var s1 := Push(s0, 1, 1).0;
    assert s1 == HeapState([Entry(1, 1, true), Entry(0, 0, false), Entry(0, 0, false), Entry(0, 0, false)], 1, 0);
    var s2 := Push(s1, 5, 5).0;
    assert s2 == HeapState([Entry(1, 1, true), Entry(5, 5, true), Entry(0, 0, false), Entry(0, 0, false)], 2, 1);
    var s3 := Push(s2, 3, 3).0;
    assert s3 == HeapState([Entry(1, 1, true), Entry(5, 5, true), Entry(3, 3, true), Entry(0, 0, false)], 3, 1);
    var s4 := Push(s3, 2, 2).0;
    assert s4 == HeapState([Entry(1, 1, true), Entry(2, 2, true), Entry(3, 3, true), Entry(5, 5, true)], 4, 1);
  }

  /** Capacity 5: after priorities 4 and 3, the sift of 3 leaves
      `highestPriorityIndex` on 3; priority 2 then counts as the highest and
      is appended without a sift, below the 4 it should rise above. The heap
      order is broken and five pops hand out 1, 3, 2, 4, 5. */
  lemma StaleIndexBreaksOrder()
    ensures var s := Push(Push(Push(Push(Push(MakeBoundedHeap(5, 0), 4, 4).0, 3, 3).0, 1, 1).0, 2, 2).0, 5, 5).0;
            var p1 := Pop(s);
            var p2 := Pop(p1.0);
            var p3 := Pop(p2.0);
            var p4 := Pop(p3.0);
            var p5 := Pop(p4.0);
            && !HeapOrdered(s.entries, s.nextSlot)
            && [p1.1, p2.1, p3.1, p4.1, p5.1] == [Popped(1), Popped(3), Popped(2), Popped(4), Popped(5)]
  {
    StaleIndexPushes();
    assert ParentOfIndex(3) == 1;
    StaleIndexFirstPops();
    StaleIndexLastPops();
  }

  /** The pushes of `StaleIndexBreaksOrder`, slot by slot. */
  lemma StaleIndexPushes()
    ensures Push(Push(Push(Push(Push(MakeBoundedHeap(5, 0), 4, 4).0, 3, 3).0, 1, 1).0, 2, 2).0, 5, 5).0
            == HeapState([Entry(1, 1, true), Entry(4, 4, true), Entry(3, 3, true), Entry(2, 2, true), Entry(5, 5, true)], 5, 4)
  {
    var e0 := Entry(0, 0, false);
    var s0 := MakeBoundedHeap(5, 0);
    var s1 := Push(s0, 4, 4).0;
    assert s1 == HeapState([Entry(4, 4, true), e0, e0, e0, e0], 1, 0);
    var s2 := Push(s1, 3, 3).0;
    assert s2 == HeapState([Entry(3, 3, true), Entry(4, 4, true), e0, e0, e0], 2, 0);
    var s3 := Push(s2, 1, 1).0;
    assert s3 == HeapState([Entry(1, 1, true), Entry(4, 4, true), Entry(3, 3, true), e0, e0], 3, 0);
    var s4 := Push(s3, 2, 2).0;
    assert s4 == HeapState([Entry(1, 1, true), Entry(4, 4, true), Entry(3, 3, true), Entry(2, 2, true), e0], 4, 3);
  }

  /** The first two pops of `StaleIndexBreaksOrder`. */
  lemma StaleIndexFirstPops()
    ensures var s := HeapState([Entry(1, 1, true), Entry(4, 4, true), Entry(3, 3, true), Entry(2, 2, true), Entry(5, 5, true)], 5, 4);
            var p1 := Pop(s);
            var p2 := Pop(p1.0);
            && p1.1 == Popped(1) && p2.1 == Popped(3)
            && p2.0 == HeapState([Entry(2, 2, true), Entry(4, 4, true), Entry(5, 5, true), Entry(2, 2, false), Entry(5, 5, false)], 3, 2)
  {
    var s := HeapState([Entry(1, 1, true), Entry(4, 4, true), Entry(3, 3, true), Entry(2, 2, true), Entry(5, 5, true)], 5, 4);
    var c1 := MoveLastToRoot(s.entries, 4);
    assert c1 == [Entry(5, 5, true), Entry(4, 4, true), Entry(3, 3, true), Entry(2, 2, true), Entry(5, 5, false)];
    assert SwapTarget(c1, 4, 0) == 2;
    var d1 := Swap(c1, 2, 0);
    assert d1 == [Entry(3, 3, true), Entry(4, 4, true), Entry(5, 5, true), Entry(2, 2, true), Entry(5, 5, false)];
    assert SwapTarget(d1, 4, 2) == 2;
    assert BubbleDown(c1, 4, 0) == (d1, 2);
    var p1 := Pop(s);
    assert p1 == (HeapState(d1, 4, 2), Popped(1));
    var c2 := MoveLastToRoot(p1.0.entries, 3);
    assert c2 == [Entry(2, 2, true), Entry(4, 4, true), Entry(5, 5, true), Entry(2, 2, false), Entry(5, 5, false)];
    assert SwapTarget(c2, 3, 0) == 0;
  }

  /** The last three pops of `StaleIndexBreaksOrder`. */
  lemma StaleIndexLastPops()
    ensures var s := HeapState([Entry(2, 2, true), Entry(4, 4, true), Entry(5, 5, true), Entry(2, 2, false), Entry(5, 5, false)], 3, 2);
            var p3 := Pop(s);
            var p4 := Pop(p3.0);
            var p5 := Pop(p4.0);
            p3.1 == Popped(2) && p4.1 == Popped(4) && p5.1 == Popped(5)
  {
    var s := HeapState([Entry(2, 2, true), Entry(4, 4, true), Entry(5, 5, true), Entry(2, 2, false), Entry(5, 5, false)], 3, 2);
    var c3 := MoveLastToRoot(s.entries, 2);
    assert c3 == [Entry(5, 5, true), Entry(4, 4, true), Entry(5, 5, false), Entry(2, 2, false), Entry(5, 5, false)];
    assert SwapTarget(c3, 2, 0) == 1;
    var d3 := Swap(c3, 1, 0);
    assert d3 == [Entry(4, 4, true), Entry(5, 5, true), Entry(5, 5, false), Entry(2, 2, false), Entry(5, 5, false)];
    assert SwapTarget(d3, 2, 1) == 1;
    assert BubbleDown(c3, 2, 0) == (d3, 1);
    var p3 := Pop(s);
    assert p3.0.entries == d3 && p3.0.nextSlot == 2 && p3.0.highestPriorityIndex == 1;
    var c4 := MoveLastToRoot(p3.0.entries, 1);
    assert c4 == [Entry(5, 5, true), Entry(5, 5, false), Entry(5, 5, false), Entry(2, 2, false), Entry(5, 5, false)];
    assert SwapTarget(c4, 1, 0) == 0;
    assert BubbleDown(c4, 1, 0) == (c4, 0);
    var p4 := Pop(p3.0);
    assert p4.0.entries == c4 && p4.0.nextSlot == 1;
  }

  // ---------------------------------------------------------------------
  // highestPriorityIndex carried through the sift
  // ---------------------------------------------------------------------

  /** `bubbleUpIndex`, also reporting the slot the entry at `tracked` ends
      up in: it moves only when it is one of the two slots swapped. */
  function BubbleUpTracking<T>(e: seq<Entry<T>>, index: int, tracked: int): (r: (seq<Entry<T>>, int))
    requires 0 <= index < |e| && 0 <= tracked < |e|
    ensures r.0 == BubbleUp(e, index)
    ensures 0 <= r.1 < |e| && r.0[r.1] == e[tracked]
    ensures tracked > index ==> r.1 == tracked
    ensures tracked <= index ==> r.1 <= index
    decreases index
  {
    var parent := ParentOfIndex(index);
    if e[parent].priority > e[index].priority then
      var moved := if tracked == index then parent else if tracked == parent then index else tracked;
      BubbleUpTracking(Swap(e, index, parent), parent, moved)
    else (e, tracked)
  }

  /** Push with `highestPriorityIndex` kept on its entry: as `Push`, except
      that when the new entry is sifted up, the index follows the entry it
      named if the sift moves it. */
  function PushTracked<T>(s: HeapState<T>, item: T, priority: int): (r: (HeapState<T>, bool))
    requires WellIndexed(s)
    ensures WellIndexed(r.0) && Capacity(r.0) == Capacity(s)
    ensures var p := Push(s, item, priority);
            r.1 == p.1 && r.0.entries == p.0.entries && r.0.nextSlot == p.0.nextSlot
  {
    var hpi := s.highestPriorityIndex;
    if s.nextSlot == |s.entries| then
      Push(s, item, priority)
    else
      var written := s.entries[s.nextSlot := Admitted(item, priority)];
      if priority > written[hpi].priority then
        (HeapState(written, s.nextSlot + 1, s.nextSlot), true)
      else
        var sifted := BubbleUpTracking(written, s.nextSlot, hpi);
        (HeapState(sifted.0, s.nextSlot + 1, sifted.1), true)
  }

  /** With the index carried through the sift, a valid heap whose
      `highestPriorityIndex` names a least urgent entry keeps both through
      every push, and a push is admitted exactly when there is a free slot
      or a held entry strictly less urgent than the new one, which it
      replaces. */
  lemma PushTrackedKeepsTracked<T>(s: HeapState<T>, item: T, priority: int)
    requires Valid(s) && Tracked(s)
    ensures var r := PushTracked(s, item, priority);
            && (r.1 <==> s.nextSlot < Capacity(s)
                         || exists k | 0 <= k < s.nextSlot :: priority < s.entries[k].priority)
            && Valid(r.0) && Tracked(r.0)
  {
    var e := s.entries;
    var hpi := s.highestPriorityIndex;
    if s.nextSlot == Capacity(s) {
      PushWhenFull(s, item, priority);
      if exists k | 0 <= k < s.nextSlot :: priority < e[k].priority {
        var k :| 0 <= k < s.nextSlot && priority < e[k].priority;
        assert e[k].priority <= e[hpi].priority;
      }
    } else {
      PushWhenNotFull(s, item, priority);
      var w := e[s.nextSlot := Admitted(item, priority)];
      if s.nextSlot > 0 && priority <= e[hpi].priority {
        assert w[hpi] == e[hpi];
        SiftUpKeepsWorst(e, s.nextSlot, hpi, Admitted(item, priority));
      }
    }
  }

  /** The sifting branch of `PushTracked` on the slot array: the tracked
      entry stays a least urgent one among the held entries. */
  lemma SiftUpKeepsWorst<T>(e: seq<Entry<T>>, size: int, hpi: int, x: Entry<T>)
    requires 0 <= hpi < size < |e|
    requires AllAtMost(e, size, e[hpi].priority) && x.priority <= e[hpi].priority
    ensures var b := BubbleUpTracking(e[size := x], size, hpi);
            && b.1 < size + 1
            && b.0[b.1] == e[hpi]
            && AllAtMost(b.0, size + 1, e[hpi].priority)
  {
    var w := e[size := x];
    assert w[hpi] == e[hpi];
    SiftUpWithin(w, size, e[hpi].priority);
  }

  /** Sifting up the entry at `size` keeps the priorities of `[0, size]`
      at most any bound they had. */
  lemma SiftUpWithin<T>(w: seq<Entry<T>>, size: int, top: int)
    requires 0 <= size < |w|
    requires forall k | 0 <= k < size + 1 :: w[k].priority <= top
    ensures AllAtMost(BubbleUp(w, size), size + 1, top)
  {
    var b := BubbleUp(w, size);
    BubbleUpPermutes(w, size, size + 1);
    forall k | 0 <= k < size + 1
      ensures b[k].priority <= top
    {
      assert b[..size + 1][k] == b[k];
      assert b[k] in multiset(w[..size + 1]);
      var j :| 0 <= j < size + 1 && w[..size + 1][j] == b[k];
    }
  }

  /** The push sequence of `StaleIndexRefusesPush`, with the index carried
      through the sift: it ends on the entry of priority 5, and priority 4
      is admitted in its place. */
  lemma TrackedIndexAdmits()
    ensures var s := PushTracked(PushTracked(PushTracked(PushTracked(MakeBoundedHeap(4, 0), 1, 1).0, 5, 5).0, 3, 3).0, 2, 2).0;
            && s.highestPriorityIndex == 3 && s.entries[3].priority == 5
            && PushTracked(s, 4, 4).1
  {
    var s0 := MakeBoundedHeap(4, 0);
    var s1 := PushTracked(s0, 1, 1).0;
    assert s1 == HeapState([Entry(1, 1, true), Entry(0, 0, false), Entry(0, 0, false), Entry(0, 0, false)], 1, 0);
    var s2 := PushTracked(s1, 5, 5).0;
    assert s2 == HeapState([Entry(1, 1, true), Entry(5, 5, true), Entry(0, 0, false), Entry(0, 0, false)], 2, 1);
    var s3 := PushTracked(s2, 3, 3).0;
    assert s3 == HeapState([Entry(1, 1, true), Entry(5, 5, true), Entry(3, 3, true), Entry(0, 0, false)], 3, 1);
    var s4 := PushTracked(s3, 2, 2).0;
    assert s4 == HeapState([Entry(1, 1, true), Entry(2, 2, true), Entry(3, 3, true), Entry(5, 5, true)], 4, 3);
  }

  /** The pushes of the package's ordering test (priorities 10, 5, 100
      into an empty heap of at least three slots): the written push leaves
      the index stale after the second push, yet the third moves it to the
      new slot, so both pushes end in the same state. */
  lemma OrderingPushesAgree(capacity: int)
    requires capacity >= 3
    ensures var h := MakeBoundedHeap(capacity, 0);
            var written := Push(Push(Push(h, 1, 10).0, 2, 5).0, 3, 100).0;
            && written == PushTracked(PushTracked(PushTracked(h, 1, 10).0, 2, 5).0, 3, 100).0
            && written.nextSlot == 3 && written.highestPriorityIndex == 2
  {
    var h := MakeBoundedHeap(capacity, 0);
    var s1 := Push(h, 1, 10).0;
    assert PushTracked(h, 1, 10).0 == s1;
    assert s1.entries[0] == Admitted(1, 10) && s1.nextSlot == 1 && s1.highestPriorityIndex == 0;
    var w := s1.entries[1 := Admitted(2, 5)];
    assert BubbleUp(w, 1) == Swap(w, 1, 0);
    var a2 := Push(s1, 2, 5).0;
    var b2 := PushTracked(s1, 2, 5).0;
    assert a2.entries == b2.entries == Swap(w, 1, 0);
    assert a2.entries[0].priority == 5 && a2.entries[1].priority == 10;
    assert a2.nextSlot == b2.nextSlot == 2;
    assert a2.highestPriorityIndex == 0 && b2.highestPriorityIndex == 1;
  }
}

=== FILE: bpq.dfy ===
/** The package surface (`BPQ`): a bounded min-priority queue that picks the
    sorted ring buffer for capacities up to 128 and the bounded heap above.
    Both strategies are stated against one contract on the multiset of held
    entries, and the package's test scenarios are derived from that
    contract alone. */
module Bpq {
  import opened Entries
  import RingBuffer
  import BoundedHeap

  /** `maxRingBufferSize`. */
  const MaxRingBufferSize := 128

  /** A queue is one of the two strategies behind the `BPQ` interface. */
  datatype Queue<T> =
    | RingQueue(ring: RingBuffer.RingState<T>)
    | HeapQueue(heap: BoundedHeap.HeapState<T>)

  ghost predicate WellIndexed<T>(q: Queue<T>)
  {
    match q
    case RingQueue(s) => RingBuffer.WellIndexed(s)
    case HeapQueue(s) => BoundedHeap.WellIndexed(s)
  }

  /** The shape each strategy keeps between calls: the ring buffer's run
      with `endIndex` pinned only when full, the heap with
      `highestPriorityIndex` on a least urgent entry. */
  ghost predicate Valid<T>(q: Queue<T>)
  {
    match q
    case RingQueue(s) => RingBuffer.Canonical(s)
    case HeapQueue(s) => BoundedHeap.Valid(s) && BoundedHeap.Tracked(s)
  }

  /** The entries the queue holds, regardless of their arrangement. */
  ghost function Held<T>(q: Queue<T>): multiset<Entry<T>>
    requires WellIndexed(q)
  {
    match q
    case RingQueue(s) => multiset(RingBuffer.Contents(s))
    case HeapQueue(s) => multiset(BoundedHeap.Contents(s))
  }

  /** `Capacity`. */
  function Capacity<T>(q: Queue<T>): int
  {
    match q
    case RingQueue(s) => RingBuffer.Capacity(s)
    case HeapQueue(s) => BoundedHeap.Capacity(s)
  }

  /** Whether a full queue lets `priority` displace a held entry of priority
      `held`: the ring buffer admits a tie (`tiesAdmitted`), the heap
      refuses it. */
  predicate Displaces(tiesAdmitted: bool, priority: int, held: int)
  {
    if tiesAdmitted then priority <= held else priority < held
  }

  /** `BPQWithCapacity`: a fresh ring buffer up to 128 slots, a fresh
      bounded heap above. */
  function BPQWithCapacity<T>(capacity: int, nil: T): (q: Queue<T>)
    requires capacity >= 1
    ensures q.RingQueue? <==> capacity <= MaxRingBufferSize
    ensures Valid(q) && Capacity(q) == capacity && Held(q) == multiset{}
  {
    if capacity <= MaxRingBufferSize then RingQueue(RingBuffer.MakeRingBuffer(capacity, nil))
    else HeapQueue(BoundedHeap.MakeBoundedHeap(capacity, nil))
  }

  /** `Push`, with `endIndex` and `highestPriorityIndex` kept as the
      corrected strategies keep them (see `PushTracked`). */
  function Push<T>(q: Queue<T>, item: T, priority: int): (r: (Queue<T>, bool))
    requires WellIndexed(q)
    ensures WellIndexed(r.0) && Capacity(r.0) == Capacity(q) && r.0.RingQueue? == q.RingQueue?
  {
    match q
    case RingQueue(s) =>
      var p := RingBuffer.Push(s, item, priority);
      (RingQueue(p.0), p.1)
    case HeapQueue(s) =>
      var p := BoundedHeap.PushTracked(s, item, priority);
      (HeapQueue(p.0), p.1)
  }

  /** `Pop`, with the ring buffer's `endIndex` released (see
      `PopUnpinning`). */
  function Pop<T>(q: Queue<T>): (r: (Queue<T>, PopResult<T>))
    requires WellIndexed(q)
    ensures WellIndexed(r.0) && Capacity(r.0) == Capacity(q) && r.0.RingQueue? == q.RingQueue?
  {
    match q
    case RingQueue(s) =>
      var p := RingBuffer.PopUnpinning(s);
      (RingQueue(p.0), p.1)
    case HeapQueue(s) =>
      var p := BoundedHeap.Pop(s);
      (HeapQueue(p.0), p.1)
  }

  // ---------------------------------------------------------------------
  // The queue contract
  // ---------------------------------------------------------------------

  /** What a pop may do to a queue holding `held`, leaving `after`: fail
      with `NoElementsError` exactly when nothing is held, changing nothing,
      or hand out the item of a most urgent held entry and lose exactly
      that entry. */
  ghost predicate PopContract<T>(held: multiset<Entry<T>>, result: PopResult<T>, after: multiset<Entry<T>>)
  {
    match result
    case Failed(error) => held == multiset{} && error == NoElementsError && after == held
    case Popped(item) =>
      exists x | x in held ::
        && x.item == item
        && (forall y | y in held :: x.priority <= y.priority)
        && after == held - multiset{x}
  }

  /** What a push of `x` may do to a queue of `capacity` holding `held`,
      leaving `after`: with a free slot it is admitted and adds `x`; when
      full it is admitted exactly when `x` displaces some held entry, and
      then trades a least urgent held entry for `x`; a refused push changes
      nothing. */
  ghost predicate PushContract<T>(held: multiset<Entry<T>>, capacity: int, tiesAdmitted: bool,
                                  x: Entry<T>, admitted: bool, after: multiset<Entry<T>>)
  {
    && (admitted <==> |held| < capacity
                      || exists y | y in held :: Displaces(tiesAdmitted, x.priority, y.priority))
    && (!admitted ==> after == held)
    && (admitted && |held| < capacity ==> after == held + multiset{x})
    && (admitted && |held| >= capacity ==>
          exists w | w in held ::
            && (forall y | y in held :: y.priority <= w.priority)
            && after == held - multiset{w} + multiset{x})
  }

  /** Every pop keeps the queue's shape and meets `PopContract`; a failed
      pop leaves the queue as it was. */
  lemma PopMeetsContract<T>(q: Queue<T>)
    requires Valid(q)
    ensures var r := Pop(q);
            && Valid(r.0)
            && PopContract(Held(q), r.1, Held(r.0))
            && (r.1.Failed? ==> r.0 == q)
  {
    match q
    case RingQueue(s) =>
      RingPopMeetsContract(s);
    case HeapQueue(s) =>
      HeapPopMeetsContract(s);
  }

  /** The ring buffer half of `PopMeetsContract`: the head of the run is
      the entry handed out. */
  lemma RingPopMeetsContract<T>(s: RingBuffer.RingState<T>)
    requires RingBuffer.Canonical(s)
    ensures var r := RingBuffer.PopUnpinning(s);
            && RingBuffer.Canonical(r.0)
            && PopContract(multiset(RingBuffer.Contents(s)), r.1, multiset(RingBuffer.Contents(r.0)))
            && (r.1.Failed? ==> r.0 == s)
  {
    RingBuffer.PopTakesHead(s);
    RingBuffer.PopUnpinningKeepsCanonical(s);
    var c := RingBuffer.Contents(s);
    var r := RingBuffer.PopUnpinning(s);
    if |c| > 0 {
      assert c == [c[0]] + c[1..];
      HeadPopContract(c, r.1, multiset(RingBuffer.Contents(r.0)));
    }
  }

  /** The bounded heap half of `PopMeetsContract`: the root is the entry
      handed out. */
  lemma HeapPopMeetsContract<T>(s: BoundedHeap.HeapState<T>)
    requires BoundedHeap.Valid(s) && BoundedHeap.Tracked(s)
    ensures var r := BoundedHeap.Pop(s);
            && BoundedHeap.Valid(r.0) && BoundedHeap.Tracked(r.0)
            && PopContract(multiset(BoundedHeap.Contents(s)), r.1, multiset(BoundedHeap.Contents(r.0)))
            && (r.1.Failed? ==> r.0 == s)
  {
    BoundedHeap.PopTakesMinimum(s);
    BoundedHeap.PopKeepsTracked(s);
    var c := BoundedHeap.Contents(s);
    var r := BoundedHeap.Pop(s);
    if |c| > 0 {
      HeadPopContract(c, r.1, multiset(BoundedHeap.Contents(r.0)));
    }
  }

  /** A first entry no less urgent than any other is a valid pop. */
  lemma HeadPopContract<T>(c: seq<Entry<T>>, result: PopResult<T>, after: multiset<Entry<T>>)
    requires |c| > 0 && result == Popped(c[0].item)
    requires forall k | 0 <= k < |c| :: c[0].priority <= c[k].priority
    requires after == multiset(c) - multiset{c[0]}
    ensures PopContract(multiset(c), result, after)
  {
    assert c[0] in multiset(c);
    forall y | y in multiset(c)
      ensures c[0].priority <= y.priority
    {
      var k :| 0 <= k < |c| && c[k] == y;
    }
  }

  /** Every push keeps the queue's shape and meets `PushContract`, with
      ties admitted by the ring buffer only; a refused push leaves the
      queue as it was. */
  lemma PushMeetsContract<T>(q: Queue<T>, item: T, priority: int)
    requires Valid(q)
    ensures var r := Push(q, item, priority);
            && Valid(r.0)
            && PushContract(Held(q), Capacity(q), q.RingQueue?, Admitted(item, priority), r.1, Held(r.0))
            && (!r.1 ==> r.0 == q)
  {
    match q
    case RingQueue(s) =>
      RingPushMeetsContract(s, item, priority);
    case HeapQueue(s) =>
      HeapPushMeetsContract(s, item, priority);
  }

  /** The ring buffer half of `PushMeetsContract`. */
  lemma RingPushMeetsContract<T>(s: RingBuffer.RingState<T>, item: T, priority: int)
    requires RingBuffer.Canonical(s)
    ensures var r := RingBuffer.Push(s, item, priority);
            && RingBuffer.Canonical(r.0)
            && PushContract(multiset(RingBuffer.Contents(s)), RingBuffer.Capacity(s), true,
                            Admitted(item, priority), r.1, multiset(RingBuffer.Contents(r.0)))
            && (!r.1 ==> r.0 == s)
  {
    var x := Admitted(item, priority);
    var c := RingBuffer.Contents(s);
    if RingBuffer.EndFree(s) {
      RingBuffer.PushIntoFreeSlot(s, item, priority);
      InsertAddsEntry(c, x);
    } else {
      var r := RingBuffer.Push(s, item, priority);
      PinnedPushHeld(s, item, priority);
      PinnedLastIsWorst(s);
      FullPushContract(c, |c| - 1, true, x, r.1, multiset(RingBuffer.Contents(r.0)));
    }
  }

  /** A push into a full ring buffer, in terms of the held entries: an
      admitted push trades the last entry for the new one. */
  lemma PinnedPushHeld<T>(s: RingBuffer.RingState<T>, item: T, priority: int)
    requires RingBuffer.Canonical(s) && !RingBuffer.EndFree(s)
    ensures var r := RingBuffer.Push(s, item, priority);
            var c := RingBuffer.Contents(s);
            var n := |c|;
            && 0 < n == RingBuffer.Capacity(s) && RingBuffer.Canonical(r.0)
            && (r.1 <==> priority <= c[n - 1].priority)
            && (!r.1 ==> r.0 == s)
            && (r.1 ==> multiset(RingBuffer.Contents(r.0))
                        == multiset(c) - multiset{c[n - 1]} + multiset{Admitted(item, priority)})
  {
    var c := RingBuffer.Contents(s);
    var n := |c|;
    RingBuffer.PushAtPinnedEnd(s, item, priority);
    if RingBuffer.Push(s, item, priority).1 {
      var x := Admitted(item, priority);
      assert multiset(InsertByPriority(c[..n - 1], x)) == multiset(c) - multiset{c[n - 1]} + multiset{x} by {
        InsertAddsEntry(c[..n - 1], x);
        assert c == c[..n - 1] + [c[n - 1]];
      }
    }
  }

  /** In a full ring buffer the last held entry is a least urgent one. */
  lemma PinnedLastIsWorst<T>(s: RingBuffer.RingState<T>)
    requires RingBuffer.Canonical(s) && !RingBuffer.EndFree(s)
    ensures var c := RingBuffer.Contents(s);
            && |c| > 0
            && forall k | 0 <= k < |c| :: c[k].priority <= c[|c| - 1].priority
  {
    var c := RingBuffer.Contents(s);
    RingBuffer.PinnedEndIsWorst(s);
    assert forall k | 0 <= k < |c| :: c[k] in c;
  }

  /** The bounded heap half of `PushMeetsContract`. */
  lemma HeapPushMeetsContract<T>(s: BoundedHeap.HeapState<T>, item: T, priority: int)
    requires BoundedHeap.Valid(s) && BoundedHeap.Tracked(s)
    ensures var r := BoundedHeap.PushTracked(s, item, priority);
            && BoundedHeap.Valid(r.0) && BoundedHeap.Tracked(r.0)
            && PushContract(multiset(BoundedHeap.Contents(s)), BoundedHeap.Capacity(s), false,
                            Admitted(item, priority), r.1, multiset(BoundedHeap.Contents(r.0)))
            && (!r.1 ==> r.0 == s)
  {
    var x := Admitted(item, priority);
    var c := BoundedHeap.Contents(s);
    var r := BoundedHeap.PushTracked(s, item, priority);
    BoundedHeap.PushTrackedKeepsTracked(s, item, priority);
    if s.nextSlot < BoundedHeap.Capacity(s) {
      BoundedHeap.PushWhenNotFull(s, item, priority);
    } else {
      var hpi := s.highestPriorityIndex;
      BoundedHeap.PushWhenFull(s, item, priority);
      assert c[hpi] == s.entries[hpi];
      FullPushContract(c, hpi, false, x, r.1, multiset(BoundedHeap.Contents(r.0)));
    }
  }

  /** A full queue whose entry at `i` is a least urgent one meets the push
      contract when it admits exactly what displaces that entry and trades
      it for `x`. */
  lemma FullPushContract<T>(c: seq<Entry<T>>, i: int, tiesAdmitted: bool, x: Entry<T>,
                            admitted: bool, after: multiset<Entry<T>>)
    requires 0 <= i < |c| && forall k | 0 <= k < |c| :: c[k].priority <= c[i].priority
    requires admitted <==> Displaces(tiesAdmitted, x.priority, c[i].priority)
    requires !admitted ==> after == multiset(c)
    requires admitted ==> after == multiset(c) - multiset{c[i]} + multiset{x}
    ensures PushContract(multiset(c), |c|, tiesAdmitted, x, admitted, after)
  {
    assert c[i] in multiset(c);
    forall y | y in multiset(c)
      ensures y.priority <= c[i].priority
    {
      var k :| 0 <= k < |c| && c[k] == y;
    }
  }
}

=== FILE: bpq_as_written.dfy ===
/** The package surface with both strategies exactly as written, and the
    package's ordering and over-fill scenarios carried over to it from the
    corrected queue of module `Bpq`. */
module BpqAsWritten {
  import opened Entries
  import opened Bpq
  import BpqScenarios
  import RingBuffer
  import BoundedHeap

  /** `Push` through the `BPQ` interface, to each strategy as written. The
      ring half is the one `Bpq.Push` already uses. */
  function PushAsWritten<T>(q: Queue<T>, item: T, priority: int): (r: (Queue<T>, bool))
    requires WellIndexed(q)
    ensures WellIndexed(r.0) && Capacity(r.0) == Capacity(q) && r.0.RingQueue? == q.RingQueue?
    ensures q.RingQueue? ==> r == Push(q, item, priority)
  {
    match q
    case RingQueue(s) =>
      var p := RingBuffer.Push(s, item, priority);
      (RingQueue(p.0), p.1)
    case HeapQueue(s) =>
      var p := BoundedHeap.Push(s, item, priority);
      (HeapQueue(p.0), p.1)
  }

  /** `Pop` through the `BPQ` interface, to each strategy as written. The
      heap half is the one `Bpq.Pop` already uses. */
  function PopAsWritten<T>(q: Queue<T>): (r: (Queue<T>, PopResult<T>))
    requires WellIndexed(q)
    ensures WellIndexed(r.0) && Capacity(r.0) == Capacity(q) && r.0.RingQueue? == q.RingQueue?
    ensures q.HeapQueue? ==> r == Pop(q)
  {
    match q
    case RingQueue(s) =>
      var p := RingBuffer.Pop(s);
      (RingQueue(p.0), p.1)
    case HeapQueue(s) =>
      var p := BoundedHeap.Pop(s);
      (HeapQueue(p.0), p.1)
  }

  /** Pops `k` times with the written pop, collecting the results in order. */
  function PopAsWrittenTimes<T>(q: Queue<T>, k: nat): (r: seq<PopResult<T>>)
    requires WellIndexed(q)
    ensures |r| == k
    decreases k
  {
    if k == 0 then [] else [PopAsWritten(q).1] + PopAsWrittenTimes(PopAsWritten(q).0, k - 1)
  }

  /** Two queues of the same strategy that differ at most in the ring
      buffer's `endIndex`, which no pop reads. */
  ghost predicate SameButEnd<T>(q: Queue<T>, q': Queue<T>)
  {
    match (q, q')
    case (RingQueue(s), RingQueue(t)) => s.entries == t.entries && s.startIndex == t.startIndex
    case (HeapQueue(s), HeapQueue(t)) => s == t
    case _ => false
  }

  /** The corrected pop and the written one agree on the result, and the
      queues they leave again differ at most in `endIndex`. */
  lemma PopAgrees<T>(q: Queue<T>, q': Queue<T>)
    requires WellIndexed(q) && WellIndexed(q') && SameButEnd(q, q')
    ensures Pop(q).1 == PopAsWritten(q').1
    ensures SameButEnd(Pop(q).0, PopAsWritten(q').0)
  {
    if q.RingQueue? {
      RingBuffer.PopIgnoresEnd(q.ring, q'.ring);
    }
  }

  /** A run of corrected pops and a run of written pops from queues that
      differ at most in `endIndex` return the same results. */
  lemma {:induction false} PopTimesAgree<T>(q: Queue<T>, q': Queue<T>, k: nat)
    requires WellIndexed(q) && WellIndexed(q') && SameButEnd(q, q')
    ensures BpqScenarios.PopQueueTimes(q, k) == PopAsWrittenTimes(q', k)
    decreases k
  {
    if k > 0 {
      PopAgrees(q, q');
      PopTimesAgree(Pop(q).0, PopAsWritten(q').0, k - 1);
    }
  }

  /** The empty-queue test as written, for either strategy: a fresh queue
      reports `NoElementsError` on pop. */
  lemma EmptyPopFailsAsWritten<T>(capacity: int, nil: T)
    requires capacity >= 1
    ensures PopAsWritten(BPQWithCapacity(capacity, nil)).1 == Failed(NoElementsError)
  {
    var q := BPQWithCapacity(capacity, nil);
    BpqScenarios.EmptyPopFails(capacity, nil);
    PopAgrees(q, q);
  }

  /** The push-then-pop test as written, for either strategy: after one
      push into a fresh queue, a pop returns the item and the next pop
      reports `NoElementsError`. */
  lemma PushThenPopAsWritten<T>(capacity: int, nil: T, item: T, priority: int)
    requires capacity >= 1
    ensures var q1 := PushAsWritten(BPQWithCapacity(capacity, nil), item, priority).0;
            PopAsWrittenTimes(q1, 2) == [Popped(item), Failed(NoElementsError)]
  {
    var q0 := BPQWithCapacity(capacity, nil);
    var c1 := Push(q0, item, priority).0;
    var w1 := PushAsWritten(q0, item, priority).0;
    if q0.HeapQueue? {
      BoundedHeap.PushAdmitsWhenNotFull(q0.heap, item, priority);
      assert w1.heap.entries == c1.heap.entries;
    }
    BpqScenarios.PushThenPop(capacity, nil, item, priority);
    PopTimesAgree(c1, w1, 2);
  }

  /** The ordering test as written, at every capacity of at least three
      and so for both strategies: items 1, 2 and 3 pushed at priorities 10,
      5 and 100 pop as 2, 1, 3, and a fourth pop reports `NoElementsError`. */
  lemma PriorityOrderingAsWritten(capacity: int)
    requires capacity >= 3
    ensures var q3 := PushAsWritten(PushAsWritten(PushAsWritten(BPQWithCapacity(capacity, 0), 1, 10).0, 2, 5).0, 3, 100).0;
            PopAsWrittenTimes(q3, 4) == [Popped(2), Popped(1), Popped(3), Failed(NoElementsError)]
  {
    var q0 := BPQWithCapacity(capacity, 0);
    var c3 := Push(Push(Push(q0, 1, 10).0, 2, 5).0, 3, 100).0;
    var w1 := PushAsWritten(q0, 1, 10).0;
    var w2 := PushAsWritten(w1, 2, 5).0;
    var w3 := PushAsWritten(w2, 3, 100).0;
    if capacity > MaxRingBufferSize {
      BoundedHeap.OrderingPushesAgree(capacity);
    }
    assert w3 == c3;
    BpqScenarios.PriorityOrdering(capacity);
    PopTimesAgree(c3, w3, 4);
  }

  /** The over-fill pushes through the written push; the queue of capacity
      5 is a ring buffer, whose push `Bpq.Push` already uses. */
  function OverFillPushesAsWritten(q: Queue<int>): (r: Queue<int>)
    requires WellIndexed(q)
    ensures q.RingQueue? ==> r == BpqScenarios.OverFillPushes(q)
  {
    var q5 := PushAsWritten(PushAsWritten(PushAsWritten(PushAsWritten(PushAsWritten(q, 1, 10).0, 2, 11).0, 3, 20).0, 4, 30).0, 5, 40).0;
    PushAsWritten(PushAsWritten(PushAsWritten(PushAsWritten(PushAsWritten(q5, 6, 50).0, 7, 5).0, 8, 1).0, 9, 50).0, 10, 35).0
  }

  /** The over-fill test as written: capacity 5, items 1 to 10 pushed at
      priorities 10, 11, 20, 30, 40, 50, 5, 1, 50, 35 pop as 8, 7, 1, 2, 3,
      and a sixth pop reports `NoElementsError`. */
  lemma OverFillAsWritten()
    ensures PopAsWrittenTimes(OverFillPushesAsWritten(BPQWithCapacity(5, 0)), 6)
            == [Popped(8), Popped(7), Popped(1), Popped(2), Popped(3), Failed(NoElementsError)]
  {
    var q := BpqScenarios.OverFillPushes(BPQWithCapacity(5, 0));
    BpqScenarios.OverFill();
    PopTimesAgree(q, q, 6);
  }
}

=== FILE: bpq_scenarios.dfy ===
/** The package's test scenarios, derived from the queue contract alone:
    they hold for whichever strategy the capacity selects. */
module BpqScenarios {
  import opened Entries
  import opened Bpq

  // ---------------------------------------------------------------------
  // Single steps, for a known multiset of held entries
  // ---------------------------------------------------------------------

  /** A push into a queue with a free slot is admitted and adds its entry. */
  lemma FreePush<T>(q: Queue<T>, item: T, priority: int)
    requires Valid(q) && |Held(q)| < Capacity(q)
    ensures var r := Push(q, item, priority);
            && Valid(r.0) && r.1
            && Held(r.0) == Held(q) + multiset{Admitted(item, priority)}
  {
    PushMeetsContract(q, item, priority);
  }

  /** A push into a full queue holding `held`, whose least urgent entry
      `w` is the only one of its priority: admitted exactly when it
      displaces `w`, and then `w` is evicted. */
  lemma FullPush<T>(q: Queue<T>, held: multiset<Entry<T>>, item: T, priority: int, w: Entry<T>)
    requires Valid(q) && Held(q) == held && |held| == Capacity(q)
    requires w in held && forall y | y in held && y != w :: y.priority < w.priority
    ensures var r := Push(q, item, priority);
            && Valid(r.0)
            && (r.1 <==> Displaces(q.RingQueue?, priority, w.priority))
            && Held(r.0) == if r.1 then held - multiset{w} + multiset{Admitted(item, priority)} else held
  {
    var r := Push(q, item, priority);
    PushMeetsContract(q, item, priority);
    if r.1 {
      var v :| v in held
               && (forall y | y in held :: y.priority <= v.priority)
               && Held(r.0) == held - multiset{v} + multiset{Admitted(item, priority)};
      assert v == w by {
        assert w.priority <= v.priority;
      }
    }
  }

  /** A pop from a queue holding `held`, whose most urgent entry `m` is
      the only one of its priority, hands out `m`'s item and loses `m`. */
  lemma MinimumPop<T>(q: Queue<T>, held: multiset<Entry<T>>, m: Entry<T>)
    requires Valid(q) && Held(q) == held && m in held
    requires forall y | y in held && y != m :: m.priority < y.priority
    ensures var r := Pop(q);
            && Valid(r.0)
            && r.1 == Popped(m.item)
            && Held(r.0) == held - multiset{m}
  {
    var r := Pop(q);
    PopMeetsContract(q);
    var x :| x in held
             && x.item == r.1.item
             && (forall y | y in held :: x.priority <= y.priority)
             && Held(r.0) == held - multiset{x};
    assert x == m by {
      assert x.priority <= m.priority;
    }
  }

  // ---------------------------------------------------------------------
  // The test scenarios
  // ---------------------------------------------------------------------

  /** A fresh queue of any capacity reports `NoElementsError` on pop. */
  lemma EmptyPopFails<T>(capacity: int, nil: T)
    requires capacity >= 1
    ensures Pop(BPQWithCapacity(capacity, nil)).1 == Failed(NoElementsError)
  {
    PopMeetsContract(BPQWithCapacity(capacity, nil));
  }

  /** After one push into a fresh queue, a pop returns the item and the
      next pop reports `NoElementsError`. */
  lemma PushThenPop<T>(capacity: int, nil: T, item: T, priority: int)
    requires capacity >= 1
    ensures var q1 := Push(BPQWithCapacity(capacity, nil), item, priority).0;
            var p1 := Pop(q1);
            && p1.1 == Popped(item)
            && Pop(p1.0).1 == Failed(NoElementsError)
  {
    var q0 := BPQWithCapacity(capacity, nil);
    var x := Admitted(item, priority);
    FreePush(q0, item, priority);
    var q1 := Push(q0, item, priority).0;
    assert Held(q1) == multiset{x};
    MinimumPop(q1, multiset{x}, x);
    PopMeetsContract(Pop(q1).0);
  }

  /** Pops `k` times, collecting the results in order. */
  function PopQueueTimes<T>(q: Queue<T>, k: nat): (r: seq<PopResult<T>>)
    requires WellIndexed(q)
    ensures |r| == k
    decreases k
  {
    if k == 0 then [] else [Pop(q).1] + PopQueueTimes(Pop(q).0, k - 1)
  }

  /** A queue holding entries of pairwise distinct priorities hands them
      out most urgent first, then reports `NoElementsError`. */
  lemma {:induction false} PopsInPriorityOrder<T>(q: Queue<T>, es: seq<Entry<T>>)
    requires Valid(q) && Held(q) == multiset(es) && StrictlySorted(es)
    ensures PopQueueTimes(q, |es| + 1) == PoppedItems(es) + [Failed(NoElementsError)]
    decreases |es|
  {
    if |es| == 0 {
      PopMeetsContract(q);
    } else {
      var first := Pop(q);
      PopSortedHead(q, es);
      PopsInPriorityOrder(first.0, es[1..]);
      assert PopQueueTimes(q, |es| + 1) == [first.1] + PopQueueTimes(first.0, |es|);
      PoppedItemsCons(es, first.1, PopQueueTimes(first.0, |es|));
    }
  }

  /** The first pop from a queue holding strictly sorted `es` hands out
      the first of them and leaves the rest. */
  lemma PopSortedHead<T>(q: Queue<T>, es: seq<Entry<T>>)
    requires Valid(q) && Held(q) == multiset(es) && StrictlySorted(es) && |es| > 0
    ensures var r := Pop(q);
            r.1 == Popped(es[0].item) && Valid(r.0) && Held(r.0) == multiset(es[1..])
    ensures StrictlySorted(es[1..])
  {
    SortedHeadUnique(es);
    MinimumPop(q, multiset(es), es[0]);
  }

  /** Popping each entry of a list is popping its first, then the rest. */
  lemma PoppedItemsCons<T>(es: seq<Entry<T>>, first: PopResult<T>, rest: seq<PopResult<T>>)
    requires |es| > 0 && first == Popped(es[0].item)
    requires rest == PoppedItems(es[1..]) + [Failed(NoElementsError)]
    ensures [first] + rest == PoppedItems(es) + [Failed(NoElementsError)]
  {
    assert PoppedItems(es) == [Popped(es[0].item)] + PoppedItems(es[1..]);
  }

  /** The first entry of a strictly sorted list is its only most urgent
      entry, and removing it leaves the rest of the list. */
  lemma SortedHeadUnique<T>(es: seq<Entry<T>>)
    requires StrictlySorted(es) && |es| > 0
    ensures es[0] in multiset(es)
    ensures forall y | y in multiset(es) && y != es[0] :: es[0].priority < y.priority
    ensures multiset(es) - multiset{es[0]} == multiset(es[1..])
    ensures StrictlySorted(es[1..])
  {
    forall y | y in multiset(es) && y != es[0]
      ensures es[0].priority < y.priority
    {
      var j :| 0 <= j < |es| && es[j] == y;
    }
    assert es == [es[0]] + es[1..];
  }

  /** With room for three, items 1, 2 and 3 pushed at priorities 10, 5 and
      100 pop as 2, 1, 3, and a fourth pop reports `NoElementsError`. */
  lemma PriorityOrdering(capacity: int)
    requires capacity >= 3
    ensures var q3 := Push(Push(Push(BPQWithCapacity(capacity, 0), 1, 10).0, 2, 5).0, 3, 100).0;
            PopQueueTimes(q3, 4) == [Popped(2), Popped(1), Popped(3), Failed(NoElementsError)]
  {
    var q3 := Push(Push(Push(BPQWithCapacity(capacity, 0), 1, 10).0, 2, 5).0, 3, 100).0;
    var es := OrderingSorted();
    OrderingPushes(capacity);
    PopsInPriorityOrder(q3, es);
  }

  /** The entries of `PriorityOrdering`, most urgent first. */
  function OrderingSorted(): (es: seq<Entry<int>>)
    ensures StrictlySorted(es)
    ensures multiset(es) == multiset{Admitted(1, 10), Admitted(2, 5), Admitted(3, 100)}
    ensures PoppedItems(es) + [Failed(NoElementsError)]
            == [Popped(2), Popped(1), Popped(3), Failed(NoElementsError)]
  {
    [Admitted(2, 5), Admitted(1, 10), Admitted(3, 100)]
  }

  /** The pushes of `PriorityOrdering` are all admitted. */
  lemma OrderingPushes(capacity: int)
    requires capacity >= 3
    ensures var q3 := Push(Push(Push(BPQWithCapacity(capacity, 0), 1, 10).0, 2, 5).0, 3, 100).0;
            Valid(q3) && Held(q3) == multiset{Admitted(1, 10), Admitted(2, 5), Admitted(3, 100)}
  {
    var q0 := BPQWithCapacity(capacity, 0);
    FreePush(q0, 1, 10);
    var q1 := Push(q0, 1, 10).0;
    FreePush(q1, 2, 5);
    var q2 := Push(q1, 2, 5).0;
    FreePush(q2, 3, 100);
  }

  // ---------------------------------------------------------------------
  // Over-filling a queue of capacity 5
  // ---------------------------------------------------------------------

  /** A full queue holding strictly sorted `es` refuses a priority that
      does not displace the last, least urgent entry. */
  lemma RefusedWhenFull<T>(q: Queue<T>, es: seq<Entry<T>>, item: T, priority: int)
    requires Valid(q) && Held(q) == multiset(es) && StrictlySorted(es)
    requires 0 < |es| == Capacity(q)
    requires !Displaces(q.RingQueue?, priority, es[|es| - 1].priority)
    ensures var r := Push(q, item, priority);
            !r.1 && Valid(r.0) && Held(r.0) == multiset(es)
  {
    SortedLastUnique(es);
    FullPush(q, multiset(es), item, priority, es[|es| - 1]);
  }

  /** A full queue holding strictly sorted `es` admits an entry more urgent
      than all of them, which evicts the last: the queue then holds
      `after`, the new entry followed by all but the last of `es`. */
  lemma AdmittedWhenFull<T>(q: Queue<T>, es: seq<Entry<T>>, item: T, priority: int, after: seq<Entry<T>>)
    requires Valid(q) && Held(q) == multiset(es) && StrictlySorted(es)
    requires 0 < |es| == Capacity(q)
    requires priority < es[0].priority
    requires after == [Admitted(item, priority)] + es[..|es| - 1]
    ensures var r := Push(q, item, priority);
            r.1 && Valid(r.0) && Held(r.0) == multiset(after)
  {
    var last := es[|es| - 1];
    SortedLastUnique(es);
    assert es[0].priority <= last.priority;
    FullPush(q, multiset(es), item, priority, last);
    ReplaceLast(es, Admitted(item, priority));
  }

  /** Dropping the last entry and adding `x` in front holds the same
      entries as taking the last out of the multiset and putting `x` in. */
  lemma ReplaceLast<T>(es: seq<Entry<T>>, x: Entry<T>)
    requires |es| > 0
    ensures multiset(es) - multiset{es[|es| - 1]} + multiset{x} == multiset([x] + es[..|es| - 1])
  {
    assert es == es[..|es| - 1] + [es[|es| - 1]];
  }

  /** The last entry of a strictly sorted list is its only least urgent
      entry. */
  lemma SortedLastUnique<T>(es: seq<Entry<T>>)
    requires StrictlySorted(es) && |es| > 0
    ensures es[|es| - 1] in multiset(es)
    ensures forall y | y in multiset(es) && y != es[|es| - 1] :: y.priority < es[|es| - 1].priority
  {
    forall y | y in multiset(es) && y != es[|es| - 1]
      ensures y.priority < es[|es| - 1].priority
    {
      var j :| 0 <= j < |es| && es[j] == y;
    }
  }

  /** The pushes of the over-fill test, applied to `q`. */
  function OverFillPushes(q: Queue<int>): Queue<int>
    requires WellIndexed(q)
  {
    var q5 := Push(Push(Push(Push(Push(q, 1, 10).0, 2, 11).0, 3, 20).0, 4, 30).0, 5, 40).0;
    Push(Push(Push(Push(Push(q5, 6, 50).0, 7, 5).0, 8, 1).0, 9, 50).0, 10, 35).0
  }

  /** Capacity 5, items 1 to 10 pushed at priorities 10, 11, 20, 30, 40,
      50, 5, 1, 50, 35: the queue keeps the five most urgent, which pop as
      8, 7, 1, 2, 3, and a sixth pop reports `NoElementsError`. No
      priority pushed ties one held, so this holds for either strategy. */
  lemma OverFill()
    ensures PopQueueTimes(OverFillPushes(BPQWithCapacity(5, 0)), 6)
            == [Popped(8), Popped(7), Popped(1), Popped(2), Popped(3), Failed(NoElementsError)]
  {
    var q0 := BPQWithCapacity(5, 0);
    var q5 := Push(Push(Push(Push(Push(q0, 1, 10).0, 2, 11).0, 3, 20).0, 4, 30).0, 5, 40).0;
    var q8 := Push(Push(Push(q5, 6, 50).0, 7, 5).0, 8, 1).0;
    var q10 := Push(Push(q8, 9, 50).0, 10, 35).0;
    OverFillFirstFive(q0);
    OverFillEvicts(q5);
    OverFillRefuses(q8);
    assert OverFillPushes(q0) == q10;
    PopsInPriorityOrder(q10, OverFillKept());
  }

  /** What the queue holds once the first five pushes have filled it. */
  function OverFillFull(): (es: seq<Entry<int>>)
    ensures |es| == 5 && StrictlySorted(es)
  {
    [Admitted(1, 10), Admitted(2, 11), Admitted(3, 20), Admitted(4, 30), Admitted(5, 40)]
  }

  /** What the queue holds once item 7 has evicted item 5. */
  function OverFillEvictedOnce(): (es: seq<Entry<int>>)
    ensures |es| == 5 && StrictlySorted(es)
    ensures es == [Admitted(7, 5)] + OverFillFull()[..4]
  {
    [Admitted(7, 5), Admitted(1, 10), Admitted(2, 11), Admitted(3, 20), Admitted(4, 30)]
  }

  /** What the queue holds at the end of the over-fill test: item 8 has
      evicted item 4 as well. */
  function OverFillKept(): (es: seq<Entry<int>>)
    ensures |es| == 5 && StrictlySorted(es)
    ensures es == [Admitted(8, 1)] + OverFillEvictedOnce()[..4]
    ensures PoppedItems(es) + [Failed(NoElementsError)]
            == [Popped(8), Popped(7), Popped(1), Popped(2), Popped(3), Failed(NoElementsError)]
  {
    [Admitted(8, 1), Admitted(7, 5), Admitted(1, 10), Admitted(2, 11), Admitted(3, 20)]
  }

  /** Pushes within capacity are admitted and append their entries. */
  lemma FreePushAppends<T>(q: Queue<T>, es: seq<Entry<T>>, item: T, priority: int)
    requires Valid(q) && Held(q) == multiset(es) && |es| < Capacity(q)
    ensures var r := Push(q, item, priority);
            && Valid(r.0) && r.1 && Capacity(r.0) == Capacity(q)
            && Held(r.0) == multiset(es + [Admitted(item, priority)])
  {
    FreePush(q, item, priority);
  }

  /** The first five pushes of the over-fill test fill an empty queue of
      capacity 5. */
  lemma OverFillFirstFive(q: Queue<int>)
    requires Valid(q) && Held(q) == multiset{} && Capacity(q) == 5
    ensures var q5 := Push(Push(Push(Push(Push(q, 1, 10).0, 2, 11).0, 3, 20).0, 4, 30).0, 5, 40).0;
            Valid(q5) && Capacity(q5) == 5 && Held(q5) == multiset(OverFillFull())
  {
    var e0: seq<Entry<int>> := [];
    FreePushAppends(q, e0, 1, 10);
    var q1 := Push(q, 1, 10).0;
    var e1 := e0 + [Admitted(1, 10)];
    FreePushAppends(q1, e1, 2, 11);
    var q2 := Push(q1, 2, 11).0;
    var e2 := e1 + [Admitted(2, 11)];
    FreePushAppends(q2, e2, 3, 20);
    var q3 := Push(q2, 3, 20).0;
    var e3 := e2 + [Admitted(3, 20)];
    FreePushAppends(q3, e3, 4, 30);
    var q4 := Push(q3, 4, 30).0;
    var e4 := e3 + [Admitted(4, 30)];
    FreePushAppends(q4, e4, 5, 40);
    FillsInOrder(e0, e1, e2, e3, e4);
  }

  /** The entries the first five pushes append, in order, are
      `OverFillFull`. */
  lemma FillsInOrder(e0: seq<Entry<int>>, e1: seq<Entry<int>>, e2: seq<Entry<int>>,
                     e3: seq<Entry<int>>, e4: seq<Entry<int>>)
    requires e0 == [] && e1 == e0 + [Admitted(1, 10)] && e2 == e1 + [Admitted(2, 11)]
    requires e3 == e2 + [Admitted(3, 20)] && e4 == e3 + [Admitted(4, 30)]
    ensures e4 + [Admitted(5, 40)] == OverFillFull()
  {
    assert e4 == [Admitted(1, 10), Admitted(2, 11), Admitted(3, 20), Admitted(4, 30)];
  }

  /** In the full queue, item 6 is refused and items 7 and 8 each evict
      the least urgent entry. */
  lemma OverFillEvicts(q5: Queue<int>)
    requires Valid(q5) && Capacity(q5) == 5 && Held(q5) == multiset(OverFillFull())
    ensures var q8 := Push(Push(Push(q5, 6, 50).0, 7, 5).0, 8, 1).0;
            Valid(q8) && Capacity(q8) == 5 && Held(q8) == multiset(OverFillKept())
  {
    OverFillEvictsOnce(q5);
    OverFillEvictsTwice(Push(Push(q5, 6, 50).0, 7, 5).0);
  }

  /** Item 6 is refused by the full queue; item 7 evicts item 5. */
  lemma OverFillEvictsOnce(q5: Queue<int>)
    requires Valid(q5) && Capacity(q5) == 5 && Held(q5) == multiset(OverFillFull())
    ensures var q7 := Push(Push(q5, 6, 50).0, 7, 5).0;
            Valid(q7) && Capacity(q7) == 5 && Held(q7) == multiset(OverFillEvictedOnce())
  {
    var full := OverFillFull();
    assert full[0].priority == 10 && full[4].priority == 40;
    RefusedWhenFull(q5, full, 6, 50);
    AdmittedWhenFull(Push(q5, 6, 50).0, full, 7, 5, OverFillEvictedOnce());
  }

  /** Item 8 evicts item 4. */
  lemma OverFillEvictsTwice(q7: Queue<int>)
    requires Valid(q7) && Capacity(q7) == 5 && Held(q7) == multiset(OverFillEvictedOnce())
    ensures var q8 := Push(q7, 8, 1).0;
            Valid(q8) && Capacity(q8) == 5 && Held(q8) == multiset(OverFillKept())
  {
    var once := OverFillEvictedOnce();
    assert once[0].priority == 5;
    AdmittedWhenFull(q7, once, 8, 1, OverFillKept());
  }

  /** Items 9 and 10 are refused: neither is more urgent than item 3, the
      least urgent entry kept. */
  lemma OverFillRefuses(q8: Queue<int>)
    requires Valid(q8) && Capacity(q8) == 5 && Held(q8) == multiset(OverFillKept())
    ensures var q10 := Push(Push(q8, 9, 50).0, 10, 35).0;
            Valid(q10) && Held(q10) == multiset(OverFillKept())
  {
    var kept := OverFillKept();
    assert kept[4].priority == 20;
    RefusedWhenFull(q8, kept, 9, 50);
    RefusedWhenFull(Push(q8, 9, 50).0, kept, 10, 35);
  }
}

=== FILE: entries.dfy ===
/** Shared by both queue strategies: one slot of a backing array, the single
    error a pop can report, the slot swap both strategies perform, and an
    independent reference ordering (a plain insertion sort) to compare the
    strategies against. */
module Entries {

  /** One slot of a backing array (`ringBufferEntry` in the ring buffer,
      `entry` in the heap). A slot that is not in use keeps the item and
      priority it last held: neither strategy ever clears them. */
  datatype Entry<T> = Entry(item: T, priority: int, inUse: bool)

  /** `NoElementsError`, the only error value of the package. */
  datatype Error = NoElementsError

  /** The `(interface{}, error)` pair Pop returns: an item with a nil error,
      or a nil item with the error. */
  datatype PopResult<T> = Popped(item: T) | Failed(error: Error)

  /** The entry Push writes for `item` at `priority`. */
  function Admitted<T>(item: T, priority: int): Entry<T>
  {
    Entry(item, priority, true)
  }

  /** Exchanges two slots (`swapIndices`, and the tuple assignment of the
      ring buffer's insertion loop). */
  function Swap<T>(e: seq<Entry<T>>, i: int, j: int): (r: seq<Entry<T>>)
    requires 0 <= i < |e| && 0 <= j < |e|
    ensures |r| == |e| && r[i] == e[j] && r[j] == e[i]
    ensures forall k | 0 <= k < |e| && k != i && k != j :: r[k] == e[k]
  {
    e[i := e[j]][j := e[i]]
  }

  /** Slots `[lo, hi)` are in non-decreasing priority order. */
  ghost predicate SortedRange<T>(e: seq<Entry<T>>, lo: int, hi: int)
    requires 0 <= lo && hi <= |e|
  {
    forall i, j | lo <= i < j < hi :: e[i].priority <= e[j].priority
  }

  ghost predicate Sorted<T>(e: seq<Entry<T>>)
  {
    SortedRange(e, 0, |e|)
  }

  /** No two entries share a priority. */
  ghost predicate StrictlySorted<T>(e: seq<Entry<T>>)
  {
    forall i, j | 0 <= i < j < |e| :: e[i].priority < e[j].priority
  }

  /** The results of popping each entry of `es` in turn. */
  function PoppedItems<T>(es: seq<Entry<T>>): (r: seq<PopResult<T>>)
    ensures |r| == |es| && forall k | 0 <= k < |es| :: r[k] == Popped(es[k].item)
  {
    seq(|es|, k requires 0 <= k < |es| => Popped(es[k].item))
  }

  // ---------------------------------------------------------------------
  // Reference ordering: a plain sorted list built by insertion.
  // ---------------------------------------------------------------------

  /** Inserts `x` into a list after every entry of priority at most
      `x.priority`. */
  function InsertByPriority<T>(s: seq<Entry<T>>, x: Entry<T>): (r: seq<Entry<T>>)
    ensures |r| == |s| + 1
    decreases |s|
  {
    if |s| == 0 then [x]
    else if x.priority < s[0].priority then [x] + s
    else [s[0]] + InsertByPriority(s[1..], x)
  }

  /** Insertion adds exactly `x` to the entries held. */
  lemma {:induction false} InsertAddsEntry<T>(s: seq<Entry<T>>, x: Entry<T>)
    ensures multiset(InsertByPriority(s, x)) == multiset(s) + multiset{x}
    decreases |s|
  {
    if |s| > 0 && s[0].priority <= x.priority {
      InsertAddsEntry(s[1..], x);
      assert s == [s[0]] + s[1..];
    }
  }

  /** Insertion into a sorted list keeps it sorted. */
  lemma {:induction false} InsertKeepsSorted<T>(s: seq<Entry<T>>, x: Entry<T>)
    requires Sorted(s)
    ensures Sorted(InsertByPriority(s, x))
    decreases |s|
  {
    if |s| > 0 && s[0].priority <= x.priority {
      var rest := InsertByPriority(s[1..], x);
      InsertKeepsSorted(s[1..], x);
      InsertAddsEntry(s[1..], x);
      var r := [s[0]] + rest;
      forall k | 1 <= k < |r|
        ensures s[0].priority <= r[k].priority
      {
        assert r[k] == rest[k - 1];
        assert r[k] in multiset(rest);
        if r[k] != x {
          assert r[k] in multiset(s[1..]);
          var j :| 0 <= j < |s[1..]| && s[1..][j] == r[k];
          assert s[j + 1] == r[k];
        }
      }
    }
  }

  /** The reference ordering: every entry inserted in turn, first to last. */
  function SortByPriority<T>(s: seq<Entry<T>>): (r: seq<Entry<T>>)
    ensures |r| == |s|
  {
    if |s| == 0 then []
    else InsertByPriority(SortByPriority(s[..|s| - 1]), s[|s| - 1])
  }

  /** The reference ordering is a sorted permutation of its input. */
  lemma {:induction false} SortByPriorityPermutes<T>(s: seq<Entry<T>>)
    ensures var r := SortByPriority(s);
            multiset(r) == multiset(s) && Sorted(r)
    decreases |s|
  {
    if |s| > 0 {
      var init := s[..|s| - 1];
      var sorted := SortByPriority(init);
      SortByPriorityPermutes(init);
      InsertAddsEntry(sorted, s[|s| - 1]);
      InsertKeepsSorted(sorted, s[|s| - 1]);
      assert SortByPriority(s) == InsertByPriority(sorted, s[|s| - 1]);
      assert multiset(s) == multiset(init) + multiset{s[|s| - 1]} by {
        assert s == init + [s[|s| - 1]];
      }
    }
  }

  /** A sorted permutation of a strictly sorted list is that list. */
  lemma {:induction false} SortedPermutationUnique<T>(a: seq<Entry<T>>, b: seq<Entry<T>>)
    requires Sorted(a) && StrictlySorted(b)
    requires multiset(a) == multiset(b)
    ensures a == b
    decreases |a|
  {
    assert |a| == |multiset(a)| == |multiset(b)| == |b|;
    if |a| > 0 {
      SameHead(a, b);
      SameTails(a, b);
      SortedPermutationUnique(a[1..], b[1..]);
      assert a == [a[0]] + a[1..];
      assert b == [b[0]] + b[1..];
    }
  }

  /** Past equal first entries, a sorted list and a strictly sorted
      permutation of it continue as such. */
  lemma SameTails<T>(a: seq<Entry<T>>, b: seq<Entry<T>>)
    requires Sorted(a) && StrictlySorted(b)
    requires multiset(a) == multiset(b) && |a| > 0 && |b| > 0 && a[0] == b[0]
    ensures Sorted(a[1..]) && StrictlySorted(b[1..])
    ensures multiset(a[1..]) == multiset(b[1..])
  {
    assert a == [a[0]] + a[1..];
    assert b == [b[0]] + b[1..];
    assert multiset(a[1..]) == multiset(a) - multiset{a[0]};
    assert multiset(b[1..]) == multiset(b) - multiset{b[0]};
  }

  /** The first entries of a sorted list and of a strictly sorted
      permutation of it agree. */
  lemma SameHead<T>(a: seq<Entry<T>>, b: seq<Entry<T>>)
    requires Sorted(a) && StrictlySorted(b)
    requires multiset(a) == multiset(b) && |a| > 0 && |b| > 0
    ensures a[0] == b[0]
  {
    assert b[0] in multiset(a);
    var i :| 0 <= i < |a| && a[i] == b[0];
    assert a[0] in multiset(b);
    var j :| 0 <= j < |b| && b[j] == a[0];
    assert a[0].priority <= a[i].priority;
  }
}

=== FILE: ring_buffer.dfy ===
/** The sorted ring buffer strategy (`bpqRingBuffer`), chosen for capacities up
    to 128. The slots form a circular array; the occupied ones are meant to be
    one run, sorted by priority, that starts at `startIndex`. `endIndex` names
    either the first free slot after the run or, once the buffer has filled,
    the run's last slot, where it stays "pinned".

    Proofs look at the buffer through its view: the slots walked circularly
    from `startIndex`, so that the run is a prefix of the view. */
module RingBuffer {
  import opened Entries

  datatype RingState<T> = RingState(entries: seq<Entry<T>>, startIndex: int, endIndex: int)

  /** The cursor ranges every operation relies on. */
  ghost predicate WellIndexed<T>(s: RingState<T>)
  {
    |s.entries| >= 1 && 0 <= s.startIndex < |s.entries| && 0 <= s.endIndex < |s.entries|
  }

  /** `Capacity`: the length of the slot array, fixed at construction. */
  function Capacity<T>(s: RingState<T>): int
  {
    |s.entries|
  }

  /** `makeRingBuffer`: `capacity` unused slots holding Go's nil item and
      priority 0, both cursors at slot 0. */
  function MakeRingBuffer<T>(capacity: int, nil: T): (s: RingState<T>)
    requires capacity >= 1
    ensures Capacity(s) == capacity
    ensures Valid(s) && EndFree(s) && Count(s) == 0 && Contents(s) == []
  {
    RingState(seq(capacity, _ => Entry(nil, 0, false)), 0, 0)
  }

  // ---------------------------------------------------------------------
  // Circular positions and the view from startIndex
  // ---------------------------------------------------------------------

  /** The physical slot `k` steps after `start`. */
  function SlotAt(n: int, start: int, k: int): (i: int)
    requires 0 <= start < n && 0 <= k < n
    ensures 0 <= i < n
  {
    if start + k < n then start + k else start + k - n
  }

  /** How many steps after `start` the physical slot `i` lies. */
  function StepsTo(n: int, start: int, i: int): (k: int)
    requires 0 <= start < n && 0 <= i < n
    ensures 0 <= k < n && SlotAt(n, start, k) == i
  {
    if i >= start then i - start else i + n - start
  }

  /** The slots walked circularly from `start`. */
  function ViewFrom<T>(e: seq<Entry<T>>, start: int): (v: seq<Entry<T>>)
    requires 0 <= start < |e|
    ensures |v| == |e|
  {
    seq(|e|, k requires 0 <= k < |e| => e[SlotAt(|e|, start, k)])
  }

  function View<T>(s: RingState<T>): seq<Entry<T>>
    requires WellIndexed(s)
  {
    ViewFrom(s.entries, s.startIndex)
  }

  /** The number of leading in-use entries of `v`. */
  function RunLength<T>(v: seq<Entry<T>>): (c: int)
    ensures 0 <= c <= |v|
    ensures forall k | 0 <= k < c :: v[k].inUse
    ensures c < |v| ==> !v[c].inUse
  {
    if |v| == 0 || !v[0].inUse then 0 else 1 + RunLength(v[1..])
  }

  /** How many entries the buffer holds. */
  function Count<T>(s: RingState<T>): int
    requires WellIndexed(s)
  {
    RunLength(View(s))
  }

  /** The held entries, in the order Pop hands them out. */
  function Contents<T>(s: RingState<T>): seq<Entry<T>>
    requires WellIndexed(s)
  {
    View(s)[..Count(s)]
  }

  /** The occupied slots are one run from `startIndex`, sorted by priority. */
  ghost predicate RunValid<T>(s: RingState<T>)
  {
    && WellIndexed(s)
    && (forall k | Count(s) <= k < |s.entries| :: !View(s)[k].inUse)
    && SortedRange(View(s), 0, Count(s))
  }

  /** `endIndex` names the first free slot after the run. */
  ghost predicate EndFree<T>(s: RingState<T>)
    requires WellIndexed(s)
  {
    Count(s) < |s.entries| && StepsTo(|s.entries|, s.startIndex, s.endIndex) == Count(s)
  }

  /** `endIndex` is pinned on the run's last (least urgent) slot. */
  ghost predicate EndPinned<T>(s: RingState<T>)
    requires WellIndexed(s)
  {
    Count(s) >= 1 && StepsTo(|s.entries|, s.startIndex, s.endIndex) == Count(s) - 1
  }

  /** The shape Push and (all but one) Pop preserve. */
  ghost predicate Valid<T>(s: RingState<T>)
  {
    RunValid(s) && (EndFree(s) || EndPinned(s))
  }

  /** The shape the promise of bpq.go:12-13 needs (a push fails only when
      the queue is full): `endIndex` is pinned only while the buffer is
      full. */
  ghost predicate Canonical<T>(s: RingState<T>)
  {
    Valid(s) && (EndPinned(s) ==> Count(s) == Capacity(s))
  }

  // ---------------------------------------------------------------------
  // Operations
  // ---------------------------------------------------------------------

  /** The backward insertion loop of Push: while the entry at `index` is in use,
      is not at `start`, and is strictly more urgent than its circular
      predecessor, swap the two and continue from the predecessor. */
  function SiftBack<T>(e: seq<Entry<T>>, start: int, index: int): (r: seq<Entry<T>>)
    requires 0 <= start < |e| && 0 <= index < |e|
    ensures |r| == |e|
    decreases StepsTo(|e|, start, index)
  {
    if index == start || !e[index].inUse then e
    else
      var prevIndex := if index == 0 then |e| - 1 else index - 1;
      if e[index].priority < e[prevIndex].priority then
        SiftBack(Swap(e, prevIndex, index), start, prevIndex)
      else
        e
  }

  /** `Push`: reject when the slot at `endIndex` is in use and strictly more
      urgent than `priority`; otherwise overwrite that slot, advance
      `endIndex` unless that would reach `startIndex`, and pull the new entry
      backwards into place. */
  function Push<T>(s: RingState<T>, item: T, priority: int): (r: (RingState<T>, bool))
    requires WellIndexed(s)
    ensures WellIndexed(r.0) && Capacity(r.0) == Capacity(s)
    ensures r.0.startIndex == s.startIndex
    ensures !r.1 ==> r.0 == s
  {
    if s.entries[s.endIndex].inUse && s.entries[s.endIndex].priority < priority then
      (s, false)
    else
      var index := s.endIndex;
      var written := s.entries[index := Admitted(item, priority)];
      var nextIndex := (s.endIndex + 1) % |s.entries|;
      var endIndex := if nextIndex != s.startIndex then nextIndex else s.endIndex;
      (RingState(SiftBack(written, s.startIndex, index), s.startIndex, endIndex), true)
  }

  /** `Pop`: fail when the slot at `startIndex` is unused; otherwise mark it
      unused, advance `startIndex` circularly and return its item. `endIndex`
      is left where it is. */
  function Pop<T>(s: RingState<T>): (r: (RingState<T>, PopResult<T>))
    requires WellIndexed(s)
    ensures WellIndexed(r.0) && Capacity(r.0) == Capacity(s)
    ensures r.1.Failed? ==> r.0 == s && r.1.error == NoElementsError
    ensures r.0.endIndex == s.endIndex
  {
    if !s.entries[s.startIndex].inUse then
      (s, Failed(NoElementsError))
    else
      var result := s.entries[s.startIndex].item;
      var entries := s.entries[s.startIndex := s.entries[s.startIndex].(inUse := false)];
      var startIndex := if s.startIndex + 1 == |s.entries| then 0 else s.startIndex + 1;
      (RingState(entries, startIndex, s.endIndex), Popped(result))
  }

  /** Pop never reads `endIndex`: two buffers that differ only there pop
      the same result and leave the same slots and `startIndex`. */
  lemma PopIgnoresEnd<T>(s: RingState<T>, t: RingState<T>)
    requires WellIndexed(s) && WellIndexed(t)
    requires s.entries == t.entries && s.startIndex == t.startIndex
    ensures Pop(s).1 == Pop(t).1
    ensures Pop(s).0.entries == Pop(t).0.entries && Pop(s).0.startIndex == Pop(t).0.startIndex
  {
  }

  // ---------------------------------------------------------------------
  // The view of each operation
  // ---------------------------------------------------------------------

  lemma ViewFromUpdate<T>(e: seq<Entry<T>>, start: int, i: int, x: Entry<T>)
    requires 0 <= start < |e| && 0 <= i < |e|
    ensures ViewFrom(e[i := x], start) == ViewFrom(e, start)[StepsTo(|e|, start, i) := x]
  {
    var n := |e|;
    var o := StepsTo(n, start, i);
    var a := ViewFrom(e[i := x], start);
    var b := ViewFrom(e, start)[o := x];
    forall k | 0 <= k < n
      ensures a[k] == b[k]
    {
      if k != o {
        assert SlotAt(n, start, k) != i;
      }
    }
  }

  lemma ViewFromSwap<T>(e: seq<Entry<T>>, start: int, i: int, j: int)
    requires 0 <= start < |e| && 0 <= i < |e| && 0 <= j < |e|
    ensures ViewFrom(Swap(e, i, j), start)
         == Swap(ViewFrom(e, start), StepsTo(|e|, start, i), StepsTo(|e|, start, j))
  {
    ViewFromUpdate(e, start, i, e[j]);
    ViewFromUpdate(e[i := e[j]], start, j, e[i]);
  }

  /** The insertion loop seen from `startIndex`: the entry at position `k` of
      the view moves towards the front while it is strictly more urgent than
      the entry before it. */
  function SiftBackSeq<T>(v: seq<Entry<T>>, k: int): (r: seq<Entry<T>>)
    requires 0 <= k < |v|
    ensures |r| == |v|
    ensures forall j | k < j < |v| :: r[j] == v[j]
    decreases k
  {
    if k == 0 || !v[k].inUse then v
    else if v[k].priority < v[k - 1].priority then SiftBackSeq(Swap(v, k - 1, k), k - 1)
    else v
  }

  lemma {:induction false} SiftBackView<T>(e: seq<Entry<T>>, start: int, index: int)
    requires 0 <= start < |e| && 0 <= index < |e|
    ensures ViewFrom(SiftBack(e, start, index), start)
         == SiftBackSeq(ViewFrom(e, start), StepsTo(|e|, start, index))
    decreases StepsTo(|e|, start, index)
  {
    var prevIndex := if index == 0 then |e| - 1 else index - 1;
    if index != start && e[index].inUse && e[index].priority < e[prevIndex].priority {
      SiftBackView(Swap(e, prevIndex, index), start, prevIndex);
      SiftBackViewSwapStep(e, start, index, prevIndex);
    } else {
      var v := ViewFrom(e, start);
      var k := StepsTo(|e|, start, index);
      assert v[k] == e[index];
      if k > 0 {
        assert StepsTo(|e|, start, prevIndex) == k - 1;
        assert v[k - 1] == e[prevIndex];
      }
    }
  }

  /** The swapping step of `SiftBackView`, given the claim for the swapped
      slots one step back. */
  lemma SiftBackViewSwapStep<T>(e: seq<Entry<T>>, start: int, index: int, prevIndex: int)
    requires 0 <= start < |e| && 0 <= index < |e| && index != start && e[index].inUse
    requires prevIndex == if index == 0 then |e| - 1 else index - 1
    requires e[index].priority < e[prevIndex].priority
    requires ViewFrom(SiftBack(Swap(e, prevIndex, index), start, prevIndex), start)
          == SiftBackSeq(ViewFrom(Swap(e, prevIndex, index), start), StepsTo(|e|, start, prevIndex))
    ensures ViewFrom(SiftBack(e, start, index), start)
         == SiftBackSeq(ViewFrom(e, start), StepsTo(|e|, start, index))
  {
    var v := ViewFrom(e, start);
    var k := StepsTo(|e|, start, index);
    var swapped := Swap(e, prevIndex, index);
    SwapStepInView(e, start, index, prevIndex);
    SiftBackSeqStep(v, k);
    calc {
      ViewFrom(SiftBack(e, start, index), start);
      ViewFrom(SiftBack(swapped, start, prevIndex), start);
      SiftBackSeq(ViewFrom(swapped, start), k - 1);
      SiftBackSeq(Swap(v, k - 1, k), k - 1);
      SiftBackSeq(v, k);
    }
  }

  /** In the view, the slot before `index` is the position before it, so a
      swap of the two physical slots is a swap of adjacent view positions. */
  lemma SwapStepInView<T>(e: seq<Entry<T>>, start: int, index: int, prevIndex: int)
    requires 0 <= start < |e| && 0 <= index < |e| && index != start
    requires prevIndex == if index == 0 then |e| - 1 else index - 1
    ensures var v := ViewFrom(e, start);
            var k := StepsTo(|e|, start, index);
            && 0 < k
            && StepsTo(|e|, start, prevIndex) == k - 1
            && v[k] == e[index] && v[k - 1] == e[prevIndex]
            && ViewFrom(Swap(e, prevIndex, index), start) == Swap(v, k - 1, k)
  {
    var v := ViewFrom(e, start);
    var k := StepsTo(|e|, start, index);
    assert v[k] == e[index];
    assert StepsTo(|e|, start, prevIndex) == k - 1;
    ViewFromSwap(e, start, prevIndex, index);
  }

  /** One step of the insertion loop seen from `startIndex`. */
  lemma SiftBackSeqStep<T>(v: seq<Entry<T>>, k: int)
    requires 0 < k < |v| && v[k].inUse && v[k].priority < v[k - 1].priority
    ensures SiftBackSeq(v, k) == SiftBackSeq(Swap(v, k - 1, k), k - 1)
  {
  }

  /** Inserting an entry no more urgent than the last one appends it. */
  lemma {:induction false} InsertAfterLast<T>(s: seq<Entry<T>>, x: Entry<T>)
    requires Sorted(s)
    requires |s| > 0 ==> s[|s| - 1].priority <= x.priority
    ensures InsertByPriority(s, x) == s + [x]
    decreases |s|
  {
    if |s| > 0 {
      assert s[0].priority <= x.priority;
      InsertAfterLast(s[1..], x);
      assert s == [s[0]] + s[1..];
    }
  }

  /** Inserting an entry strictly more urgent than the last one leaves the
      last one last. */
  lemma {:induction false} InsertBeforeLast<T>(s: seq<Entry<T>>, x: Entry<T>)
    requires Sorted(s) && |s| > 0 && x.priority < s[|s| - 1].priority
    ensures InsertByPriority(s, x) == InsertByPriority(s[..|s| - 1], x) + [s[|s| - 1]]
    decreases |s|
  {
    if x.priority >= s[0].priority {
      assert |s| >= 2;
      InsertBeforeLast(s[1..], x);
      assert s[1..][..|s| - 2] == s[..|s| - 1][1..];
    } else if |s| > 1 {
      assert s[..|s| - 1][0] == s[0];
      assert s == s[..|s| - 1] + [s[|s| - 1]];
    }
  }

  /** The insertion loop places the moving entry exactly where the reference
      insertion does, and leaves the rest of the view alone. */
  lemma {:induction false} SiftBackSeqInserts<T>(v: seq<Entry<T>>, k: int)
    requires 0 <= k < |v|
    requires v[k].inUse && Sorted(v[..k])
    ensures SiftBackSeq(v, k)[..k + 1] == InsertByPriority(v[..k], v[k])
    decreases k
  {
    if k == 0 {
      assert v[..1] == [v[0]];
    } else if v[k].priority < v[k - 1].priority {
      var v' := Swap(v, k - 1, k);
      assert v'[..k - 1] == v[..k - 1] == v[..k][..k - 1];
      SiftBackSeqInserts(v', k - 1);
      SiftBackSeqInsertsSwapStep(v, k);
    } else {
      InsertAfterLast(v[..k], v[k]);
      assert v[..k + 1] == v[..k] + [v[k]];
    }
  }

  /** The swapping step of `SiftBackSeqInserts`, given the claim for the
      swapped view one position further forward. */
  lemma SiftBackSeqInsertsSwapStep<T>(v: seq<Entry<T>>, k: int)
    requires 0 < k < |v|
    requires v[k].inUse && Sorted(v[..k]) && v[k].priority < v[k - 1].priority
    requires SiftBackSeq(Swap(v, k - 1, k), k - 1)[..k] == InsertByPriority(v[..k - 1], v[k])
    ensures SiftBackSeq(v, k)[..k + 1] == InsertByPriority(v[..k], v[k])
  {
    var r' := SiftBackSeq(Swap(v, k - 1, k), k - 1);
    SiftBackSeqStep(v, k);
    InsertBeforeLast(v[..k], v[k]);
    assert v[..k][..k - 1] == v[..k - 1];
    assert r'[k] == v[k - 1];
    assert r'[..k + 1] == r'[..k] + [r'[k]];
  }

  /** An admitted push, seen from `startIndex`: the new entry is written at
      the position of `endIndex` and pulled backwards. */
  lemma PushView<T>(s: RingState<T>, item: T, priority: int)
    requires WellIndexed(s)
    requires !(s.entries[s.endIndex].inUse && s.entries[s.endIndex].priority < priority)
    ensures var o := StepsTo(|s.entries|, s.startIndex, s.endIndex);
            View(Push(s, item, priority).0) == SiftBackSeq(View(s)[o := Admitted(item, priority)], o)
  {
    var o := StepsTo(|s.entries|, s.startIndex, s.endIndex);
    var written := s.entries[s.endIndex := Admitted(item, priority)];
    assert Push(s, item, priority).0.entries == SiftBack(written, s.startIndex, s.endIndex);
    assert ViewFrom(written, s.startIndex) == View(s)[o := Admitted(item, priority)] by {
      ViewFromUpdate(s.entries, s.startIndex, s.endIndex, Admitted(item, priority));
    }
    SiftBackView(written, s.startIndex, s.endIndex);
  }

  /** An admitted push moves `endIndex` one step on, unless that step would
      reach `startIndex`. */
  lemma PushEndSteps<T>(s: RingState<T>, item: T, priority: int)
    requires WellIndexed(s)
    requires !(s.entries[s.endIndex].inUse && s.entries[s.endIndex].priority < priority)
    ensures var n := |s.entries|;
            var o := StepsTo(n, s.startIndex, s.endIndex);
            var r := Push(s, item, priority).0;
            StepsTo(n, r.startIndex, r.endIndex) == if o + 1 < n then o + 1 else o
  {
    var n := |s.entries|;
    var nextIndex := (s.endIndex + 1) % n;
    assert nextIndex == if s.endIndex + 1 == n then 0 else s.endIndex + 1 by {
      CircularSuccessor(s.endIndex, n);
    }
    var r := Push(s, item, priority).0;
    assert r.endIndex == if nextIndex != s.startIndex then nextIndex else s.endIndex;
  }

  /** Go's `(i + 1) % n` for a slot index `i`. */
  lemma CircularSuccessor(i: int, n: int)
    requires 0 <= i < n
    ensures (i + 1) % n == if i + 1 == n then 0 else i + 1
  {
  }

  /** A successful pop, seen from `startIndex`: the head moves to the back,
      now unused. */
  lemma PopView<T>(s: RingState<T>)
    requires WellIndexed(s) && s.entries[s.startIndex].inUse
    ensures var v := View(s);
            View(Pop(s).0) == v[1..] + [v[0].(inUse := false)]
  {
    var v := View(s);
    var r := Pop(s).0;
    var w := v[1..] + [v[0].(inUse := false)];
    forall k | 0 <= k < |v|
      ensures View(r)[k] == w[k]
    {
      if k < |v| - 1 {
        assert SlotAt(|v|, r.startIndex, k) == SlotAt(|v|, s.startIndex, k + 1);
      }
    }
  }

  // ---------------------------------------------------------------------
  // Push and Pop against the contents
  // ---------------------------------------------------------------------

  /** The pulled-back view after writing at position `o` keeps its first
      `o + 1` entries in use and sorted, and is the reference insertion. */
  lemma WrittenRun<T>(v: seq<Entry<T>>, o: int, x: Entry<T>)
    requires 0 <= o < |v| && x.inUse
    requires forall k | 0 <= k < o :: v[k].inUse
    requires SortedRange(v, 0, o)
    ensures var w := SiftBackSeq(v[o := x], o);
            && w[..o + 1] == InsertByPriority(v[..o], x)
            && (forall k | 0 <= k <= o :: w[k].inUse)
            && SortedRange(w, 0, o + 1)
            && (forall k | o < k < |v| :: w[k] == v[k])
  {
    var v' := v[o := x];
    assert v'[..o] == v[..o];
    SiftBackSeqInserts(v', o);
    var w := SiftBackSeq(v', o);
    var ins := InsertByPriority(v[..o], x);
    assert Sorted(v[..o]);
    InsertAddsEntry(v[..o], x);
    InsertKeepsSorted(v[..o], x);
    forall k | 0 <= k <= o
      ensures w[k].inUse
    {
      assert w[k] == ins[k];
      assert ins[k] in multiset(ins);
      if ins[k] != x {
        assert ins[k] in multiset(v[..o]);
      }
    }
    forall i, j | 0 <= i < j < o + 1
      ensures w[i].priority <= w[j].priority
    {
      assert w[i] == ins[i] && w[j] == ins[j];
    }
  }

  /** A run of exactly `c` leading in-use entries has length `c`. */
  lemma RunLengthIs<T>(v: seq<Entry<T>>, c: int)
    requires 0 <= c <= |v|
    requires forall k | 0 <= k < c :: v[k].inUse
    requires c < |v| ==> !v[c].inUse
    ensures RunLength(v) == c
  {
  }

  /** An admitted push writing at position `o` of the view, either just
      after the run or on its last entry, leaves a sorted run of `o + 1`
      entries: the first `o` old entries with the new one inserted. */
  lemma PushWritesRun<T>(s: RingState<T>, item: T, priority: int, o: int)
    requires RunValid(s)
    requires !(s.entries[s.endIndex].inUse && s.entries[s.endIndex].priority < priority)
    requires o == StepsTo(|s.entries|, s.startIndex, s.endIndex)
    requires o == Count(s) || o == Count(s) - 1
    ensures var r := Push(s, item, priority).0;
            && RunValid(r)
            && Count(r) == o + 1
            && Contents(r) == InsertByPriority(View(s)[..o], Admitted(item, priority))
  {
    var v := View(s);
    PushView(s, item, priority);
    WrittenRun(v, o, Admitted(item, priority));
    var w := View(Push(s, item, priority).0);
    RunLengthIs(w, o + 1);
  }

  /** With `endIndex` on a free slot, Push always admits: the contents become
      the reference insertion of the new entry, one entry longer, and the
      shape is kept (pinning `endIndex` exactly when the buffer fills). */
  lemma PushIntoFreeSlot<T>(s: RingState<T>, item: T, priority: int)
    requires Valid(s) && EndFree(s)
    ensures var r := Push(s, item, priority);
            && r.1
            && Canonical(r.0)
            && Count(r.0) == Count(s) + 1
            && Contents(r.0) == InsertByPriority(Contents(s), Admitted(item, priority))
  {
    var c := Count(s);
    assert s.entries[s.endIndex] == View(s)[c];
    PushWritesRun(s, item, priority, c);
    PushEndSteps(s, item, priority);
  }

  /** With `endIndex` pinned on the run's last entry, Push rejects exactly
      when that entry is strictly more urgent than `priority`. Admission
      evicts exactly that entry: the other entries stay, the new one is
      inserted in order, the count is unchanged, and `endIndex` moves to the
      first free slot unless the buffer is full. */
  lemma PushAtPinnedEnd<T>(s: RingState<T>, item: T, priority: int)
    requires Valid(s) && EndPinned(s)
    ensures var r := Push(s, item, priority);
            var c := Count(s);
            && (r.1 <==> priority <= Contents(s)[c - 1].priority)
            && (!r.1 ==> r.0 == s)
            && (r.1 ==> && Canonical(r.0)
                        && Count(r.0) == c
                        && Contents(r.0) == InsertByPriority(Contents(s)[..c - 1], Admitted(item, priority)))
  {
    PinnedEndIsWorst(s);
    if priority <= Contents(s)[Count(s) - 1].priority {
      PinnedPushAdmitted(s, item, priority);
    }
  }

  /** The admitting half of `PushAtPinnedEnd`. */
  lemma PinnedPushAdmitted<T>(s: RingState<T>, item: T, priority: int)
    requires Valid(s) && EndPinned(s)
    requires s.entries[s.endIndex] == Contents(s)[Count(s) - 1]
    requires priority <= Contents(s)[Count(s) - 1].priority
    ensures var r := Push(s, item, priority);
            var c := Count(s);
            && r.1
            && Canonical(r.0)
            && Count(r.0) == c
            && Contents(r.0) == InsertByPriority(Contents(s)[..c - 1], Admitted(item, priority))
  {
    var c := Count(s);
    PushWritesRun(s, item, priority, c - 1);
    PushEndSteps(s, item, priority);
    assert View(s)[..c][..c - 1] == View(s)[..c - 1];
  }

  /** The entry at a pinned `endIndex` is the last, least urgent resident. */
  lemma PinnedEndIsWorst<T>(s: RingState<T>)
    requires Valid(s) && EndPinned(s)
    ensures s.entries[s.endIndex] == Contents(s)[Count(s) - 1]
    ensures forall e | e in Contents(s) :: e.priority <= s.entries[s.endIndex].priority
  {
    var v := View(s);
    var c := Count(s);
    assert s.entries[s.endIndex] == v[c - 1] == Contents(s)[c - 1];
  }

  /** Pop fails exactly on an empty buffer, leaving it as it was. Otherwise
      it returns the item of the first, most urgent entry and the remaining
      entries stay, in order, as one sorted run. */
  lemma PopTakesHead<T>(s: RingState<T>)
    requires RunValid(s)
    ensures var r := Pop(s);
            && (r.1.Failed? <==> Count(s) == 0)
            && (Count(s) == 0 ==> r.0 == s)
            && (Count(s) > 0 ==>
                  && r.1 == Popped(Contents(s)[0].item)
                  && (forall e | e in Contents(s) :: Contents(s)[0].priority <= e.priority)
                  && RunValid(r.0)
                  && Contents(r.0) == Contents(s)[1..])
  {
    assert s.entries[s.startIndex] == View(s)[0];
    if Count(s) > 0 {
      PopShiftsRun(s);
    }
  }

  /** The view of a successful pop is the old view shifted by one, so the
      run loses its first entry and nothing else. */
  lemma PopShiftsRun<T>(s: RingState<T>)
    requires RunValid(s) && Count(s) > 0
    ensures var r := Pop(s).0;
            && RunValid(r)
            && Count(r) == Count(s) - 1
            && Contents(r) == Contents(s)[1..]
  {
    var v := View(s);
    var c := Count(s);
    assert s.entries[s.startIndex] == v[0];
    PopView(s);
    var r := Pop(s).0;
    var w := View(r);
    assert forall k | 0 <= k < c - 1 :: w[k] == v[k + 1];
    assert c - 1 < |v| ==> !w[c - 1].inUse;
    assert Count(r) == c - 1;
  }

  /** A successful pop moves `endIndex` one step back relative to
      `startIndex`, wrapping to the last position when it was at the run's
      first slot. */
  lemma PopEndSteps<T>(s: RingState<T>)
    requires WellIndexed(s) && s.entries[s.startIndex].inUse
    ensures var n := |s.entries|;
            var o := StepsTo(n, s.startIndex, s.endIndex);
            var r := Pop(s).0;
            StepsTo(n, r.startIndex, r.endIndex) == if o > 0 then o - 1 else n - 1
  {
  }

  /** Pop keeps the shape, except when it takes the only entry of a buffer
      whose `endIndex` is pinned: then `endIndex` is left behind the now
      empty run, on a free slot that is not the first one. */
  lemma PopKeepsShape<T>(s: RingState<T>)
    requires Valid(s) && Count(s) > 0
    ensures Valid(Pop(s).0) <==> !(EndPinned(s) && Count(s) == 1 && Capacity(s) > 1)
  {
    assert s.entries[s.startIndex] == View(s)[0];
    PopShiftsRun(s);
    PopEndSteps(s);
  }

  /** A rejected push leaves the buffer alone, and every resident is then
      strictly more urgent than the rejected priority. In the canonical shape
      the buffer is also full: Push fails only when full and every resident
      is more urgent. */
  lemma RejectionMeansAllMoreUrgent<T>(s: RingState<T>, item: T, priority: int)
    requires Valid(s) && !Push(s, item, priority).1
    ensures Push(s, item, priority).0 == s
    ensures forall e | e in Contents(s) :: e.priority < priority
    ensures Canonical(s) ==> Count(s) == Capacity(s)
  {
    if EndFree(s) {
      PushIntoFreeSlot(s, item, priority);
    } else {
      PushAtPinnedEnd(s, item, priority);
      PinnedEndIsWorst(s);
    }
  }

  /** Push keeps the canonical shape. */
  lemma PushKeepsCanonical<T>(s: RingState<T>, item: T, priority: int)
    requires Canonical(s)
    ensures Canonical(Push(s, item, priority).0)
  {
    if EndFree(s) {
      PushIntoFreeSlot(s, item, priority);
    } else {
      PushAtPinnedEnd(s, item, priority);
    }
  }

  // ---------------------------------------------------------------------
  // The pinned end after a pop
  // ---------------------------------------------------------------------

  /** Capacity 2: after pushing priorities 1 and 2 and popping once, one
      slot is free, yet a push of priority 3 is refused, because
      `endIndex` is still pinned on the remaining entry. */
  lemma PinnedEndRefusesFreeSlot()
    ensures var s := Pop(Push(Push(MakeRingBuffer(2, 0), 1, 1).0, 2, 2).0).0;
            && Count(s) == 1 && Capacity(s) == 2
            && !Push(s, 3, 3).1
  {
    var s0 := MakeRingBuffer(2, 0);
    var s1 := Push(s0, 1, 1).0;
    assert s1 == RingState([Entry(1, 1, true), Entry(0, 0, false)], 0, 1);
    var s2 := Push(s1, 2, 2).0;
    assert s2 == RingState([Entry(1, 1, true), Entry(2, 2, true)], 0, 1);
    var s3 := Pop(s2).0;
    assert s3 == RingState([Entry(1, 1, false), Entry(2, 2, true)], 1, 1);
    assert View(s3) == [Entry(2, 2, true), Entry(1, 1, false)];
  }

  /** Capacity 2: after pushing priorities 1 and 2 and popping both, a push
      of priority 5 is accepted, but the next pop reports an empty buffer:
      the entry was written behind `startIndex`. */
  lemma PinnedEndLosesEntry()
    ensures var s := Pop(Pop(Push(Push(MakeRingBuffer(2, 0), 1, 1).0, 2, 2).0).0).0;
            var t := Push(s, 3, 5);
            && Count(s) == 0
            && t.1
            && Pop(t.0).1 == Failed(NoElementsError)
  {
    var s0 := MakeRingBuffer(2, 0);
    var s1 := Push(s0, 1, 1).0;
    assert s1 == RingState([Entry(1, 1, true), Entry(0, 0, false)], 0, 1);
    var s2 := Push(s1, 2, 2).0;
    assert s2 == RingState([Entry(1, 1, true), Entry(2, 2, true)], 0, 1);
    var s3 := Pop(s2).0;
    assert s3 == RingState([Entry(1, 1, false), Entry(2, 2, true)], 1, 1);
    var s4 := Pop(s3).0;
    assert s4 == RingState([Entry(1, 1, false), Entry(2, 2, false)], 0, 1);
    assert View(s4) == [Entry(1, 1, false), Entry(2, 2, false)];
    var t := Push(s4, 3, 5).0;
    assert t == RingState([Entry(1, 1, false), Entry(3, 5, true)], 0, 1);
  }

  /** Pop with `endIndex` released: as `Pop`, and when the popped buffer had
      `endIndex` pinned on an occupied slot, `endIndex` steps on to the slot
      after it, which is the first free slot after the shortened run. */
  function PopUnpinning<T>(s: RingState<T>): (r: (RingState<T>, PopResult<T>))
    requires WellIndexed(s)
    ensures WellIndexed(r.0) && Capacity(r.0) == Capacity(s)
    ensures var p := Pop(s);
            r.1 == p.1 && r.0.entries == p.0.entries && r.0.startIndex == p.0.startIndex
  {
    var popped := Pop(s);
    if popped.1.Popped? && s.entries[s.endIndex].inUse then
      (popped.0.(endIndex := (s.endIndex + 1) % |s.entries|), popped.1)
    else
      popped
  }

  /** The corrected pop hands out what `Pop` does and leaves the same
      contents, and it always leaves the canonical shape behind, so that
      the push verdicts of `RejectionMeansAllMoreUrgent` hold for every
      state reachable from a fresh buffer. */
  lemma PopUnpinningKeepsCanonical<T>(s: RingState<T>)
    requires Valid(s)
    ensures var r := PopUnpinning(s);
            && r.1 == Pop(s).1
            && Canonical(r.0)
            && Contents(r.0) == Contents(Pop(s).0)
            && (Count(s) > 0 ==> EndFree(r.0))
  {
    assert s.entries[s.startIndex] == View(s)[0];
    if Count(s) > 0 {
      PopShiftsRun(s);
      UnpinnedEndSteps(s);
    }
  }

  /** After the corrected pop, `endIndex` lies just after the shortened run. */
  lemma UnpinnedEndSteps<T>(s: RingState<T>)
    requires Valid(s) && Count(s) > 0
    ensures var r := PopUnpinning(s).0;
            && r.entries == Pop(s).0.entries && r.startIndex == Pop(s).0.startIndex
            && StepsTo(|s.entries|, r.startIndex, r.endIndex) == Count(s) - 1
  {
    var n := |s.entries|;
    var o := StepsTo(n, s.startIndex, s.endIndex);
    assert s.entries[s.startIndex] == View(s)[0];
    assert s.entries[s.endIndex] == View(s)[o];
    PopEndSteps(s);
    if s.entries[s.endIndex].inUse {
      CircularSuccessor(s.endIndex, n);
    }
  }
}

=== FILE: ring_runs.dfy ===
/** Runs of several operations on the ring buffer from a fresh state,
    compared against the reference ordering. */
module RingRuns {
  import opened Entries
  import opened RingBuffer

  /** The entries Push writes for a list of (item, priority) pairs. */
  function AsEntries<T>(ps: seq<(T, int)>): (r: seq<Entry<T>>)
    ensures |r| == |ps| && forall k | 0 <= k < |ps| :: r[k] == Admitted(ps[k].0, ps[k].1)
  {
    seq(|ps|, k requires 0 <= k < |ps| => Admitted(ps[k].0, ps[k].1))
  }

  /** Pushes every pair in turn, first to last, ignoring the verdicts. */
  function PushAll<T>(s: RingState<T>, ps: seq<(T, int)>): (r: RingState<T>)
    requires WellIndexed(s)
    ensures WellIndexed(r) && Capacity(r) == Capacity(s)
    decreases |ps|
  {
    if |ps| == 0 then s
    else Push(PushAll(s, ps[..|ps| - 1]), ps[|ps| - 1].0, ps[|ps| - 1].1).0
  }

  /** Pops `k` times, collecting the results in order. */
  function PopTimes<T>(s: RingState<T>, k: nat): (r: (RingState<T>, seq<PopResult<T>>))
    requires WellIndexed(s)
    ensures WellIndexed(r.0) && |r.1| == k
    decreases k
  {
    if k == 0 then (s, [])
    else
      var first := Pop(s);
      var rest := PopTimes(first.0, k - 1);
      (rest.0, [first.1] + rest.1)
  }

  /** Up to capacity pushes into a fresh buffer are all admitted and hold
      exactly the reference ordering of the pushed entries: sorted by
      priority, equal priorities in arrival order. */
  lemma {:induction false} PushAllSorts<T>(capacity: int, nil: T, ps: seq<(T, int)>)
    requires 1 <= capacity && |ps| <= capacity
    ensures var s := PushAll(MakeRingBuffer(capacity, nil), ps);
            && Canonical(s)
            && Count(s) == |ps|
            && Contents(s) == SortByPriority(AsEntries(ps))
    decreases |ps|
  {
    if |ps| > 0 {
      var init := ps[..|ps| - 1];
      PushAllSorts(capacity, nil, init);
      var s := PushAll(MakeRingBuffer(capacity, nil), init);
      var (item, priority) := ps[|ps| - 1];
      assert PushAll(MakeRingBuffer(capacity, nil), ps) == Push(s, item, priority).0;
      assert EndFree(s);
      PushIntoFreeSlot(s, item, priority);
      assert SortByPriority(AsEntries(ps))
          == InsertByPriority(SortByPriority(AsEntries(init)), Admitted(item, priority)) by {
        assert AsEntries(ps)[..|ps| - 1] == AsEntries(init);
      }
    }
  }

  /** Popping `k` times from a sorted run hands out the items of its first
      `k` entries, most urgent first, and leaves the rest. */
  lemma {:induction false} PopTimesTakesPrefix<T>(s: RingState<T>, k: nat)
    requires RunValid(s) && k <= Count(s)
    ensures var r := PopTimes(s, k);
            && RunValid(r.0)
            && Contents(r.0) == Contents(s)[k..]
            && r.1 == PoppedItems(Contents(s)[..k])
    decreases k
  {
    if k > 0 {
      PopTakesHead(s);
      var first := Pop(s);
      var rest := PopTimes(first.0, k - 1);
      PopTimesTakesPrefix(first.0, k - 1);
      assert Contents(s)[1..][k - 1..] == Contents(s)[k..];
      assert PopTimes(s, k).1 == [first.1] + rest.1;
      PoppedPrefixCons(Contents(s), k);
    }
  }

  /** Popping the first `k` entries is popping the first, then the next
      `k - 1`. */
  lemma PoppedPrefixCons<T>(c: seq<Entry<T>>, k: int)
    requires 0 < k <= |c|
    ensures PoppedItems(c[..k]) == [Popped(c[0].item)] + PoppedItems(c[1..][..k - 1])
  {
    assert c[1..][..k - 1] == c[..k][1..];
  }

  /** Pushing at most capacity pairs into a fresh buffer and then popping
      once more than were pushed yields the pushed items in the reference
      order, then `NoElementsError`. */
  lemma PushesThenPopsInOrder<T>(capacity: int, nil: T, ps: seq<(T, int)>)
    requires 1 <= capacity && |ps| <= capacity
    ensures var sorted := SortByPriority(AsEntries(ps));
            var out := PopTimes(PushAll(MakeRingBuffer(capacity, nil), ps), |ps| + 1).1;
            && out[..|ps|] == PoppedItems(sorted)
            && out[|ps|] == Failed(NoElementsError)
  {
    var s := PushAll(MakeRingBuffer(capacity, nil), ps);
    PushAllSorts(capacity, nil, ps);
    PopTimesTakesPrefix(s, |ps|);
    PopTimesSplit(s, |ps|);
    var r := PopTimes(s, |ps|).0;
    PopTakesHead(r);
  }

  /** With pairwise distinct priorities, any ascending arrangement of the
      pushed entries (the one `sort.Sort` gives the random test) is the
      reference order, so the pops follow it and then fail. */
  lemma PopsFollowAnySort<T>(capacity: int, nil: T, ps: seq<(T, int)>, es: seq<Entry<T>>)
    requires 1 <= capacity && |ps| <= capacity
    requires StrictlySorted(es) && multiset(es) == multiset(AsEntries(ps))
    ensures PopTimes(PushAll(MakeRingBuffer(capacity, nil), ps), |ps| + 1).1
            == PoppedItems(es) + [Failed(NoElementsError)]
  {
    var sorted := SortByPriority(AsEntries(ps));
    var out := PopTimes(PushAll(MakeRingBuffer(capacity, nil), ps), |ps| + 1).1;
    SortByPriorityPermutes(AsEntries(ps));
    SortedPermutationUnique(sorted, es);
    PushesThenPopsInOrder(capacity, nil, ps);
    assert out == out[..|ps|] + [out[|ps|]];
  }

  /** Popping `k + 1` times is popping `k` times and then once more. */
  lemma {:induction false} PopTimesSplit<T>(s: RingState<T>, k: nat)
    requires WellIndexed(s)
    ensures var a := PopTimes(s, k);
            PopTimes(s, k + 1).1 == a.1 + [Pop(a.0).1]
    decreases k
  {
    if k > 0 {
      PopTimesSplit(Pop(s).0, k - 1);
    }
  }
}
